=== FILE: README.md ===
# Household food dashboard: a Dafny model of the food feature

This project models the food section of a household dashboard written in
TypeScript (Next.js). It covers three layers:

- **The LLM gateway.** `src/lib/llm.ts` chooses between a local Ollama server
  and the hosted Anthropic API, based on environment variables. It fills in
  the Ollama defaults, renders the inventory into the meal-plan prompt, and
  pulls JSON out of the model's free-form reply. A failed extraction quietly
  becomes an empty result. `src/lib/anthropic.ts` is a separate,
  Anthropic-only copy of the same two operations.
- **The food API routes.** These are the inventory table (list, insert,
  delete), meal plans (latest plan, generation, week start) and photo upload
  (file name, extension, snapshot, reply message).
- **Three client-side rules.** These are the detected-items review list
  (select, toggle, add, confirm), the inventory list (category tabs and
  their counts) and the sidebar's active-link test.

Everything is pure functions over immutable datatypes:

- A database table is a `seq` of rows plus the next AUTOINCREMENT id.
- An environment variable is an `Option<string>`. An empty string counts as
  unset, as it does under JavaScript truthiness.
- `JSON.parse` is a parameter `string -> Option<Json>`, where `None` is a
  thrown `SyntaxError`. `JSON.stringify` is a parameter `Json -> string`.
- The two inference services are parameters from request to reply. They
  are bundled with the environment and the parser in `Backends.Services`.
  "The handler never calls a backend" is stated as "the outcome is the
  same for any two service records".
- The lazily built Anthropic client is an `Option<Client>` slot. Each
  gateway operation takes the slot and returns it updated.
- Clocks (`Date.now()`, the local date) and the insertion times that the
  schema's `(datetime('now'))` column default supplies are number
  parameters. A constant parameter covers the reading in which that
  default is stored as literal text (see "## Left out").
- The upload and meal-plan POST handlers answer a caught error with its
  message. The inventory POST and the meal-plan GET answer with fixed texts
  ("Failed to save inventory", "Failed to fetch meal plan").

Modules follow the source files:

- `Llm` (`llm.dfy`), with `Backends` (`backends.dfy`) for the two services
  and `Span` (`span.dfy`) for the regex match.
- `AnthropicLib` (`anthropic.dfy`).
- `InventoryRoute`, `MealPlanRoute` and `UploadRoute` (the `*_route.dfy`
  files).
- `DetectedItemsReview`, `InventoryList` and `Sidebar`.
- Shared helpers: `Wrappers` (`Option`, `Result`), `Seqs` (`filter`/`map`),
  `Strings` (`trim`, `split`/`join`, `indexOf`, `parseInt`, number
  rendering), `Json` and `Env`.

**The greedy match.** The item extraction does not recover an arbitrary
array embedded in a longer reply. It applies the greedy regex
`/\[[\s\S]*\]/`, which runs from the first `[` to the last `]`:

- `Span.MatchSpanIsLeftmostLongest` proves the match is that span.
- `Llm.ExtractItemsFromEmbeddedArray` proves the array is recovered
  when the prose before it has no `[` and the prose after it has no `]`.
- `Span.GreedyMatchSpansProse` gives a reply (`a [1] b [2]`) where the
  match swallows the prose between two bracketed pieces.

The same holds for objects and `{`/`}`.

## Model

| member | source | states |
|---|---|---|
| Seqs.Filter | src/components/food/detected-items-review.tsx:51 | `filter` keeps only elements that pass the test, keeps every element that passes, and never lengthens the list. `Seqs.FilterConcat` fixes the order |
| Seqs.FilterConcat | src/components/food/inventory-list.tsx:36 | filtering a concatenation is the concatenation of the filtered parts, so the kept elements stay in their original order |
| Seqs.Map | src/app/api/food/meal-plan/route.ts:39-43 | `map` gives one image per element, position by position |
| Llm.GetProvider | src/lib/llm.ts:34-41 | Anthropic is chosen iff LLM_PROVIDER is "anthropic", or there is no recognised override, no Ollama URL and an API key. Ollama is chosen iff LLM_PROVIDER is "ollama", or there is no recognised override and an Ollama URL is set. Selection fails, with the fixed message, iff none of these apply |
| Llm.OverrideDecides | src/lib/llm.ts:35-36 | a recognised LLM_PROVIDER alone decides the backend, whatever else is set |
| Llm.AutoDetectDependsOnlyOnWhatIsSet | src/lib/llm.ts:37-40 | without an override, the choice depends only on whether OLLAMA_BASE_URL and ANTHROPIC_API_KEY are set (non-empty) |
| Llm.GetOllamaConfig | src/lib/llm.ts:43-49 | each setting is the variable's value when it is non-empty and the fixed default otherwise, so no setting is ever empty |
| Strings.OrElse | src/lib/llm.ts:45-47 | `v \|\| fallback`: a non-empty value passes through unchanged; unset or "" gives the fallback |
| Backends.OllamaChatRequest | src/lib/llm.ts:53-72 | the request goes to `<baseUrl>/api/chat` with the given model and prompt and streaming off. It carries exactly one image when a non-empty image is given, and none otherwise |
| Backends.OllamaChat | src/lib/llm.ts:74-80 | a network error is a failure. A non-OK reply fails with "Ollama error (status): body". An OK reply yields its message content, or "" when there is none |
| Backends.LazyClient | src/lib/llm.ts:85-94 | an existing client is returned and kept. With no client and no key the call fails and nothing is remembered. Otherwise a client is built from the key and remembered |
| Backends.LazyClientIsSingleton | src/lib/llm.ts:87-93 | once a call has produced a client, every later call returns that same client and leaves the slot unchanged, even if the key has changed |
| Backends.FirstText | src/lib/llm.ts:103 | the reply text is the first block's text when that block is text, and "" when it is another kind. A reply with no blocks fails with the TypeError of reading `content[0]` |
| Span.MatchSpanIsLeftmostLongest | src/lib/llm.ts:133-136 | the span from the first opening character to the last closing one exists iff the regex matches at all. It is then the leftmost-longest match that JavaScript reports, and that match is unique |
| Span.MatchSpan | src/lib/llm.ts:135 | a match starts with the opening character and ends with the closing one. `Span.MatchSpanIsLeftmostLongest` proves it is the match JavaScript reports |
| Span.EmbeddedSpan | src/lib/llm.ts:135 | a bracketed text with no opening character before it and no closing character after it is matched exactly |
| Span.GreedyMatchSpansProse | src/lib/llm.ts:171 | on `a [1] b [2]` the match is `[1] b [2]`, not either array alone |
| Llm.ParseJson | src/lib/llm.ts:133-141 | `null` when nothing matches. Otherwise the parser's verdict on exactly the leftmost-longest match, where a throw is `null` |
| Llm.ExtractItems | src/lib/llm.ts:171 | no match or a failed parse gives `[]`, and the result is always truthy |
| Llm.ExtractPlan | src/lib/llm.ts:211 | no match or a failed parse gives `{days: [], grocery_list: []}`, and the result is always truthy |
| Llm.ExtractItemsIsArray | src/lib/llm.ts:171 | given a parser that turns `[`-text only into arrays, the items are always an array, and are exactly the parsed match when the parse succeeds |
| Llm.ExtractPlanIsObject | src/lib/llm.ts:211 | given a parser that turns `{`-text only into objects, the plan is always an object, and is exactly the parsed match when the parse succeeds |
| Llm.ExtractItemsFromEmbeddedArray | src/lib/llm.ts:133-136 | an array with no `[` in the prose before it and no `]` in the prose after it is recovered exactly |
| Llm.RenderItemListLines | src/lib/llm.ts:178-180 | when no field contains a newline, splitting the rendered list on "\n" gives one `- name (quantity) [category]` line per item, in input order, with no trailing empty line |
| Llm.RenderEmpty | src/lib/llm.ts:178-180 | an empty inventory renders as "" |
| Llm.RenderItemList | src/lib/llm.ts:178-180 | no items render as "", and one item renders as its single `- name (quantity) [category]` line. `Llm.RenderItemListLines` states the general case |
| Strings.JoinSplit | src/lib/llm.ts:180 | joining the pieces of a split with the separator restores the string |
| Strings.SplitJoin | src/lib/llm.ts:178-180 | splitting a join of separator-free pieces gives the pieces back |
| Llm.Ask | src/lib/llm.ts:96-129 | the Ollama path sends the prompt (and the image, if any) to the configured base URL with the given model and yields what `ollamaChat` yields; it never touches the client slot. The Anthropic path obtains the lazy client (failing with "ANTHROPIC_API_KEY is not set" and an empty slot when there is none and no key). It sends one request with the client's key, `ANTHROPIC_MODEL` or the default model, 4096 tokens, the prompt and the image, and yields the first block's text of the reply, "" for a non-text first block, or the SDK's error |
| Llm.AnalyzeInventoryImage | src/lib/llm.ts:143-173 | with no provider the call fails before any backend call and keeps the slot. Otherwise it succeeds exactly when the chosen backend answers. The raw response is that answer verbatim, the items are extracted from it, and a backend error is passed on unchanged |
| Llm.GenerateMealPlan | src/lib/llm.ts:175-213 | the same for the text model and the rendered inventory: the raw response is the backend's answer verbatim and the plan is extracted from it |
| Llm.NoProviderNoBackendCall | src/lib/llm.ts:161 | with no provider configured, both operations give the same outcome whatever the backends would answer |
| Llm.AnalyzeViaOllama | src/lib/llm.ts:161-172 | on the Ollama path the vision model receives the image at `<baseUrl>/api/chat`. A network error or a non-OK reply fails the call with its message. An OK reply's content (or "") is returned verbatim, together with its extracted items, and the slot is untouched |
| Llm.PlanViaOllama | src/lib/llm.ts:201-212 | on the Ollama path the text model receives the rendered inventory and no image. Errors fail the call, and an OK reply's content (or "") is the raw response with its extracted plan |
| Llm.AnalyzeViaAnthropic | src/lib/llm.ts:106-129 | on the Anthropic path, with a client, one request carries the image, the configured or default model and 4096 tokens. The first text block is the raw response with its extracted items. A non-text first block gives no items and "". No blocks gives the TypeError, and an SDK error is passed on. The client is kept |
| Llm.PlanViaAnthropic | src/lib/llm.ts:96-104 | on the Anthropic path one request carries the configured model (or the default), the 4096-token limit and the rendered inventory. The first text block is the raw response with its extracted plan. A non-text first block yields the empty plan and "". No blocks gives the TypeError, and an SDK error is passed on |
| AnthropicLib.GetAnthropicClient | src/lib/anthropic.ts:5-14 | with no client and an unset or empty key the call fails with "... not set in environment variables". An existing client is returned unchanged. Otherwise a client is built from the key and remembered |
| AnthropicLib.ExtractItems | src/lib/anthropic.ts:60-68 | no match gives `[]`. Otherwise the parsed match, or `[]` when the parse throws; a parsed value is kept as it is |
| AnthropicLib.ExtractPlan | src/lib/anthropic.ts:118-126 | no match gives the empty plan. Otherwise the parsed match, or the empty plan when the parse throws |
| AnthropicLib.ExtractItemsAgreesWithGateway | src/lib/anthropic.ts:60-70 | for every reply text, given a parser that turns `[`-text only into arrays, the items equal those of the gateway in src/lib/llm.ts |
| AnthropicLib.ExtractPlanAgreesWithGateway | src/lib/anthropic.ts:118-128 | the same agreement for meal plans, given a parser that turns `{`-text only into objects |
| AnthropicLib.AgreementNeedsWellShapedParser | src/lib/anthropic.ts:64 | a parser answering `null` for `[]` makes this module return `null` where the gateway returns `[]` |
| AnthropicLib.Ask | src/lib/anthropic.ts:21-58 | with no client and no key the call fails and the slot stays empty. Otherwise one request goes out with the client's key, the fixed model, 4096 tokens, the prompt and the image. The result is the first block's text, "" for a non-text block, or the SDK's error |
| AnthropicLib.AnalyzeInventoryImage | src/lib/anthropic.ts:16-71 | fails without a key. It succeeds exactly when the request is answered. The raw response is the answer verbatim, the items are this module's extraction from it, and the client is held |
| AnthropicLib.AnalyzedItemsAreArray | src/lib/anthropic.ts:60-70 | with a parser that reads `[`-text only as arrays, the detected items are always an array |
| AnthropicLib.GenerateMealPlan | src/lib/anthropic.ts:79-129 | fails without a key. It succeeds exactly when the request is answered. The raw response is the answer verbatim, the plan is this module's extraction from it, and the client is held |
| AnthropicLib.AnalyzeReturnsReply | src/lib/anthropic.ts:21-71 | with a client, the image request to the fixed model yields the first text block verbatim with its items, or the SDK's error, and keeps the client |
| AnthropicLib.PlanReturnsReply | src/lib/anthropic.ts:79-128 | with a client, the plan request to the fixed model yields the first text block verbatim with its plan, or the SDK's error, and keeps the client |
| AnthropicLib.NonTextReplyIsEmpty | src/lib/anthropic.ts:58 | a reply whose first block is not text gives no items and raw response "" |
| AnthropicLib.EmptyReplyFails | src/lib/anthropic.ts:116 | a reply with no content blocks fails with the TypeError |
| InventoryRoute.FilterKeepsValid | src/lib/db/schema.ts:5-13 | removing rows keeps the table invariant: ids are positive, below the next id, and strictly increasing |
| InventoryRoute.Get | src/app/api/food/inventory/route.ts:6-14 | GET lists every row of the table, in table order |
| InventoryRoute.InsertRows | src/app/api/food/inventory/route.ts:28-41 | the rows created from the posted items: one per item, in order, ids counting up from the given one. Creation stops at the first item without a name, or at once when there is no location |
| InventoryRoute.InsertAll | src/app/api/food/inventory/route.ts:28-41 | each item becomes one row, in order, with consecutive fresh ids, `category = location`, and name, quantity and expiry copied. The loop stops at the first item without a name (or with no location) and keeps the rows already inserted |
| InventoryRoute.InsertAllKeepsValid | src/app/api/food/inventory/route.ts:28-41 | inserting keeps the table invariant |
| InventoryRoute.Post | src/app/api/food/inventory/route.ts:16-48 | an undecodable body is a 500. Missing or non-array `items` is a 400 that changes nothing. On success the reply lists the new rows, its count equals the number of items, and the table is the old rows followed by the new ones. Success happens iff every item has a name and a location is given; otherwise the reply is a 500 with "Failed to save inventory". Whatever the outcome, the table is the one the item-by-item insert leaves, so the rows inserted before a failing item stay (no transaction). The invariant is kept |
| InventoryRoute.PostAllNamed | src/app/api/food/inventory/route.ts:28-43 | a body whose items all have names, with a location, is always saved in full |
| InventoryRoute.GetAfterPost | src/app/api/food/inventory/route.ts:8-9 | after a successful POST, GET lists the old rows followed by the inserted ones |
| InventoryRoute.PartialInsertOnFailure | src/app/api/food/inventory/route.ts:28-46 | a failing second item leaves the first one inserted while the reply is a 500 |
| InventoryRoute.Delete | src/app/api/food/inventory/route.ts:50-68 | with an id, exactly the rows with a different id remain (all rows when `parseInt` gives NaN). Otherwise, with a category, exactly the rows of other categories remain. Otherwise the table is emptied. The next id and the invariant are kept |
| InventoryRoute.IdTakesPrecedence | src/app/api/food/inventory/route.ts:55-58 | when an id is given, the category parameter makes no difference |
| InventoryRoute.KeepsRenderedId | src/app/api/food/inventory/route.ts:56 | a query carrying the decimal rendering of `n` keeps exactly the rows whose id is not `n` |
| Strings.ParseIntOfNatToString | src/app/api/food/inventory/route.ts:56 | `parseInt` of the decimal rendering of a number gives that number |
| Strings.ParseInt | src/app/api/food/inventory/route.ts:56 | `parseInt` of a blank string is NaN, and a negative result needs a leading `-` after the white space |
| InventoryRoute.DeleteRenderedIdRemovesOneRow | src/components/food/inventory-list.tsx:50-53 | the list's delete request removes exactly the clicked row from a valid table and keeps the others in order |
| MealPlanRoute.LatestIndex | src/app/api/food/meal-plan/route.ts:8-15 | none when the table is empty. Otherwise the row that the ordering by generation time puts last: no row is later, and rows inserted after it are strictly earlier |
| MealPlanRoute.LatestIsUnique | src/app/api/food/meal-plan/route.ts:8-15 | at most one row is the latest |
| MealPlanRoute.LatestOfEqualTimesIsLast | src/app/api/food/meal-plan/route.ts:8-15 | when every row has the same generation time, the latest row is the one inserted last |
| MealPlanRoute.Get | src/app/api/food/meal-plan/route.ts:6-25 | an empty table gives a `null` plan with no time or week. Otherwise, when the latest row's text parses, the reply is that plan with the row's time and week. The reply is a 500 with "Failed to fetch meal plan" exactly when that text does not parse. The reply is never a 400 |
| MealPlanRoute.WeekStart | src/app/api/food/meal-plan/route.ts:47-50 | the result is always a Monday. From Monday to Saturday it lies 0 to 5 days back; on a Sunday it is the next day |
| MealPlanRoute.DayOfWeek | src/app/api/food/meal-plan/route.ts:49 | `getDay()` of a day number: in 0..6, Thursday (4) for 1970-01-01, and a week apart gives the same value |
| MealPlanRoute.WeekStartOffset | src/app/api/food/meal-plan/route.ts:49 | `- getDay() + 1` moves between 5 days back and 1 day forward, and forward only on a Sunday |
| MealPlanRoute.WeekStartOfWeek | src/app/api/food/meal-plan/route.ts:47-49 | every day from a Monday to the following Saturday maps to that Monday, and the Sunday maps to the next Monday |
| MealPlanRoute.WeekStartIdempotent | src/app/api/food/meal-plan/route.ts:47-49 | a week start is its own week start |
| MealPlanRoute.PlanItems | src/app/api/food/meal-plan/route.ts:38-44 | one entry per row, in row order, with the row's name and category. The quantity is the row's quantity, or "unknown" when it is null or empty |
| MealPlanRoute.ToPlanItem | src/app/api/food/meal-plan/route.ts:39-43 | name and category copied; quantity is the row's quantity, or "unknown" when it is null or empty |
| MealPlanRoute.Post | src/app/api/food/meal-plan/route.ts:27-70 | an empty inventory is a 400 that changes nothing, including the client slot. Otherwise the gateway plans from the inventory, and the returned slot is the gateway's. The reply is a plan iff planning succeeds, and then it is the gateway's plan; a planning failure is a 500 with the gateway's message. On success the table gains exactly one row, holding the serialised returned plan, the returned week start (a Monday) and the time. On failure the table is unchanged |
| MealPlanRoute.PostReturnsGeneratedPlan | src/app/api/food/meal-plan/route.ts:38-62 | the returned plan is the gateway's plan for exactly the inventory |
| MealPlanRoute.EmptyInventoryNoPlanner | src/app/api/food/meal-plan/route.ts:31-36 | with no inventory the outcome is the same whatever the services would answer |
| MealPlanRoute.GetAfterPost | src/app/api/food/meal-plan/route.ts:52-62 | if the clock has not gone backwards and parsing the stored text gives the plan back, a GET after a successful POST returns exactly what the POST returned |
| Strings.SplitLastPiece | src/app/api/food/upload/route.ts:23 | the last piece of `split(c)` is the text after the last `c`, or the whole string when there is no `c` |
| UploadRoute.Extension | src/app/api/food/upload/route.ts:23 | the text after the last dot (the whole name when there is no dot), and "jpg" exactly when that text is empty |
| UploadRoute.ExtensionHasNoDot | src/app/api/food/upload/route.ts:23 | an extension never contains a dot |
| UploadRoute.ExtensionOfName | src/app/api/food/upload/route.ts:23 | a name ending in `.ext` has extension `ext` |
| UploadRoute.NameWithoutDotIsExtension | src/app/api/food/upload/route.ts:23 | a non-empty name with no dot is its own extension |
| UploadRoute.StoredNameKeepsExtension | src/app/api/food/upload/route.ts:22-24 | the stored file name `location_timestamp.ext` has the uploaded file's extension |
| UploadRoute.FileName | src/app/api/food/upload/route.ts:24 | the name starts with the location and `_` and ends with `.` and the extension |
| UploadRoute.Location | src/app/api/food/upload/route.ts:12 | the location field when it is non-empty, "fridge" otherwise, and never empty |
| UploadRoute.MimeType | src/app/api/food/upload/route.ts:32 | the file's type when it is non-empty, "image/jpeg" otherwise |
| UploadRoute.LengthText | src/app/api/food/upload/route.ts:55 | an array renders as its element count, and rendering fails exactly for `null` |
| UploadRoute.Message | src/app/api/food/upload/route.ts:55 | "Detected " then the count, and the location at the end |
| UploadRoute.Post | src/app/api/food/upload/route.ts:8-62 | no image is a 400 with no write, no snapshot and the slot unchanged. Otherwise the file is written to `data/uploads/<location>_<timestamp>.<ext>`. A detection reply is the gateway's items and raw response, with snapshot `uploads/<file name>` and the message "Detected N items in your L"; the snapshot table gains exactly that row. A detection failure is a 500 with its message and no snapshot. Null detected items are a 500 (the `length` TypeError) that still stores the full snapshot row. Every reply after an image returns the gateway's client slot |
| UploadRoute.NoImageNoEffects | src/app/api/food/upload/route.ts:14-16 | without an image the outcome is the same whatever the services, clock or encoder |
| UploadRoute.DetectedMessageCountsItems | src/app/api/food/upload/route.ts:35-56 | given a parser that turns `[`-text only into arrays, the reply is a detection or a 500 that stores nothing. The detected items are an array, and the message counts its elements |
| DetectedItemsReview.Initial | src/components/food/detected-items-review.tsx:20-22 | one entry per detected item, in order, each selected, with the item unchanged and keyed by its position. Keys are therefore distinct, and the input is empty |
| DetectedItemsReview.Toggle | src/components/food/detected-items-review.tsx:26-32 | order, length, items and keys are unchanged. Exactly the entries keyed `id` change their selection |
| DetectedItemsReview.ToggleTwice | src/components/food/detected-items-review.tsx:29 | toggling the same key twice restores the state |
| DetectedItemsReview.ToggleFlipsOne | src/components/food/detected-items-review.tsx:26-32 | with distinct keys, toggling an entry's key flips that entry and leaves every other entry equal |
| Strings.TrimEmptyIffBlank | src/components/food/detected-items-review.tsx:35 | `trim()` is empty exactly when the string is empty or all white space |
| Strings.Trim | src/components/food/detected-items-review.tsx:35 | `trim()` is no longer than its input and neither starts nor ends with white space |
| Strings.TrimSpec | src/components/food/detected-items-review.tsx:39 | `trim()` is a contiguous piece of the string with only white space around it, and it neither starts nor ends with white space |
| DetectedItemsReview.AddItem | src/components/food/detected-items-review.tsx:34-47 | a blank input changes nothing, the input included. Otherwise exactly one selected entry is appended, with the trimmed name, quantity "1", expiry "N/A" and the current time as key, and the input is cleared |
| DetectedItemsReview.AddKeepsDistinct | src/components/food/detected-items-review.tsx:43 | adding under a key no entry has keeps keys distinct |
| DetectedItemsReview.Selected | src/components/food/detected-items-review.tsx:51 | exactly the selected entries, taken from the list |
| DetectedItemsReview.InitiallyAllSelected | src/components/food/detected-items-review.tsx:20-22 | before any toggle, confirming would send every detected item |
| DetectedItemsReview.ToPosted | src/components/food/detected-items-review.tsx:57 | the posted item carries the entry's name, quantity and expiry |
| DetectedItemsReview.ConfirmBody | src/components/food/detected-items-review.tsx:51-57 | the body carries the location and one posted item per selected entry, in list order |
| DetectedItemsReview.Confirm | src/components/food/detected-items-review.tsx:49-61 | the review closes exactly when the inventory POST with the selected items and the location succeeds |
| DetectedItemsReview.ConfirmStoresSelected | src/components/food/detected-items-review.tsx:51-61 | confirming always succeeds. It appends as many rows as the button's count of selected items, in list order, each with that item's name, quantity and expiry and the location as category |
| InventoryList.FilterItems | src/components/food/inventory-list.tsx:35-36 | "all" lists every row unchanged. Any other tab lists exactly the rows of that category, taken from the table |
| InventoryList.CategoryCounts | src/components/food/inventory-list.tsx:38-48 | there is one count per tab and no other key. Each count is the number of rows its tab lists, so the "all" count is the total |
| InventoryList.CategoryCountsAddUp | src/components/food/inventory-list.tsx:38-48 | the pantry, fridge and freezer counts sum to at most the total. They sum to exactly the total when every row has one of those categories |
| Sidebar.IsActive | src/components/sidebar.tsx:35-37 | a link is active on its own path, and a non-root link also on every path starting with its href. The lemmas below state what follows |
| Sidebar.RootOnlyAtRoot | src/components/sidebar.tsx:35-37 | the Dashboard link is active exactly on "/" |
| Sidebar.SubPathActivatesSection | src/components/sidebar.tsx:35-37 | a non-root link is active on every path that extends its href |
| Sidebar.PrefixIgnoresBoundary | src/components/sidebar.tsx:37 | "/foodx" activates Food: the prefix test ignores segment boundaries |
| Sidebar.HrefsAreNotNested | src/components/sidebar.tsx:15-22 | apart from "/", no link's href starts with another's |
| Sidebar.AtMostOneActive | src/components/sidebar.tsx:34-37 | on any path at most one link is active |
| Strings.PrefixesAreComparable | src/components/sidebar.tsx:37 | two prefixes of one string are prefixes of each other, one way or the other |
| Sidebar.OnlyOwnLinkOnItsPath | src/components/sidebar.tsx:34-37 | on a link's own href that link and no other is active; on "/" only Dashboard is |

## Left out

- Network and SDK calls (`fetch` to Ollama, `messages.create`). These are function parameters that return a reply or an error. Retries, timeouts and streaming do not exist in the code.
- The prompt wording. A prompt is modelled only by its varying part: the location, or the rendered inventory list.
- `JSON.parse` and `JSON.stringify`. They are parameters. Lemmas that need a realistic parser assume only that text starting with `[` or `{` parses to an array or object respectively (`Json.WellShaped`).
- Numbers in JSON are integers. Floating point is not modelled.
- File I/O. The upload handler returns the file it would write instead of writing it. `mkdir` and a failing write are not modelled. The base64 encoding is a parameter.
- Database failures. The in-memory tables cannot fail, so the 500 replies for a failed GET, a failed DELETE, and the "Upload failed" / "Failed to generate meal plan" fallbacks for non-`Error` throws are not modelled. Every thrown error in the model is an `Error` with a message.
- Time. `Date.now()`, the column default `(datetime('now'))` and the local date are number parameters. Calendar dates, time zones, and the `toISOString()` conversion of the Monday to a UTC date string are not modelled: the week start is a day number.
- The column default `(datetime('now'))` is written in the schema as a plain string. If it is stored as that literal text rather than evaluated, every row carries the same text. The model then has all insertion times equal (a constant parameter). `MealPlanRoute.LatestOfEqualTimesIsLast` shows that "latest" falls back to the tie order, and the reply's `generatedAt` is that text rather than a time. The ORM's handling of the default is not part of this model.
- MealPlanRoute.LatestIndex: rows with equal generation times are taken in insertion order, so the later insertion wins. SQLite does not promise any order among equal `ORDER BY` keys. `generated_at` is a text column whose values the model compares as numbers.
- Unicode. Strings are sequences of `char`. JavaScript counts UTF-16 code units, and that difference is not modelled.
- `parseInt` on digit runs whose value exceeds 2^53 loses precision in JavaScript; the model keeps the exact value.
- UploadRoute.Post: two inputs that end in the 500 reply are not modelled, because the form is given as an already decoded image and location. These are a request body that `formData()` cannot decode (upload/route.ts:10), and a non-empty text `image` field sent instead of a file, whose missing `name` makes `name.split` throw a `TypeError` (upload/route.ts:11, 23).
- UploadRoute.LengthText: an object result renders `undefined` in the model. JavaScript would render a `length` property if the object had one.
- DetectedItemsReview.ConfirmStoresSelected: detected items are modelled with string name, quantity and expiry. An item that the model reply left without a `name` (which would make the inventory POST fail part-way) is not modelled.
- React state, rendering and event wiring: the `saving` flag, the `onConfirm`/`onCancel` callbacks, icons and styles. The components' outputs are modelled as values, and the food page, image upload and meal-plan view components are not modelled.
- Concurrent first use of the lazy client: the code has no concurrency control.
- Console logging of parse and handler errors.

=== FILE: anthropic.dfy ===
/** `src/lib/anthropic.ts`: a separate, Anthropic-only version of the two
    gateway operations. It shares the prompt rendering and the result
    shapes with `Llm`, but keeps its own client singleton, uses a fixed
    model, and falls back to the empty result only when the regex finds
    nothing or the parse throws (there is no `|| []`). */
module AnthropicLib {
  import opened Wrappers
  import opened Strings
  import opened Env
  import opened Json
  import opened Span
  import opened Backends
  import Llm

  const MissingKeyError: string := "ANTHROPIC_API_KEY is not set in environment variables"

  /** `getAnthropicClient`: the module's own lazily built client. */
  function GetAnthropicClient(slot: Option<Client>, env: Env): (r: (Result<Client, string>, Option<Client>))
    ensures slot.None? && !IsSet(env.anthropicApiKey) ==> r == (Failure(MissingKeyError), None)
    ensures slot.Some? ==> r == (Success(slot.value), slot)
    ensures slot.None? && IsSet(env.anthropicApiKey) ==>
              r == (Success(Client(env.anthropicApiKey.value)), Some(Client(env.anthropicApiKey.value)))
    ensures r.0.Success? ==> r.1 == Some(r.0.value)
  {
    LazyClient(slot, env.anthropicApiKey, MissingKeyError)
  }

  /** The items of a reply: the parsed `[...]` span, or `[]` when there is
      no span or the parse throws. A parse result is kept as it is. */
  function ExtractItems(text: string, parse: Parser): (items: Json)
    ensures MatchSpan(text, ArrayOpen, ArrayClose).None? ==> items == JArr([])
    ensures MatchSpan(text, ArrayOpen, ArrayClose).Some? ==>
              items == parse(MatchSpan(text, ArrayOpen, ArrayClose).value).GetOr(JArr([]))
  {
    match MatchSpan(text, ArrayOpen, ArrayClose)
    case None => JArr([])
    case Some(span) => parse(span).GetOr(JArr([]))
  }

  /** The plan of a reply: the parsed `{...}` span, or the empty plan when
      there is no span or the parse throws. */
  function ExtractPlan(text: string, parse: Parser): (plan: Json)
    ensures MatchSpan(text, ObjectOpen, ObjectClose).None? ==> plan == EmptyPlan
    ensures MatchSpan(text, ObjectOpen, ObjectClose).Some? ==>
              plan == parse(MatchSpan(text, ObjectOpen, ObjectClose).value).GetOr(EmptyPlan)
  {
    match MatchSpan(text, ObjectOpen, ObjectClose)
    case None => EmptyPlan
    case Some(span) => parse(span).GetOr(EmptyPlan)
  }

  /** For every reply text, this module's item extraction agrees with the
      gateway's, given a parser that turns `[...]` text only into arrays
      (the `|| []` of the gateway then never fires on a parsed value). */
  lemma ExtractItemsAgreesWithGateway(text: string, parse: Parser)
    requires WellShaped(parse)
    ensures ExtractItems(text, parse) == Llm.ExtractItems(text, parse)
  {
    var m := MatchSpan(text, ArrayOpen, ArrayClose);
    if m.Some? {
      MatchSpanIsLeftmostLongest(text, ArrayOpen, ArrayClose);
      assert m.value[0] == ArrayOpen;
      var p := parse(m.value);
      if p.Some? {
        assert p.value.JArr? && Truthy(p.value);
      }
    }
  }

  /** The same agreement for meal plans. */
  lemma ExtractPlanAgreesWithGateway(text: string, parse: Parser)
    requires WellShaped(parse)
    ensures ExtractPlan(text, parse) == Llm.ExtractPlan(text, parse)
  {
    var m := MatchSpan(text, ObjectOpen, ObjectClose);
    if m.Some? {
      MatchSpanIsLeftmostLongest(text, ObjectOpen, ObjectClose);
      assert m.value[0] == ObjectOpen;
      var p := parse(m.value);
      if p.Some? {
        assert p.value.JObj? && Truthy(p.value);
      }
    }
  }

  /** The agreement rests on the parser: one that answered `null` for
      `[]` would make this module return `null` where the gateway returns `[]`. */
  lemma AgreementNeedsWellShapedParser()
    ensures var parse: Parser := (s: string) => Some(JNull);
            ExtractItems("[]", parse) == JNull && Llm.ExtractItems("[]", parse) == JArr([])
  {
    var parse: Parser := (s: string) => Some(JNull);
    assert FirstIndex("[]", ArrayOpen) == Some(0);
    assert LastIndex("[]", ArrayClose) == Some(1);
    assert "[]"[0..2] == "[]";
    assert MatchSpan("[]", ArrayOpen, ArrayClose) == Some("[]");
  }

  /** Sends one request through the client and reads the first content
      block. */
  function Ask(sv: Services, slot: Option<Client>, prompt: Prompt, image: Option<Image>): (r: (Result<string, string>, Option<Client>))
    ensures slot.None? && !IsSet(sv.env.anthropicApiKey) ==> r == (Failure(MissingKeyError), None)
    ensures r.0.Success? ==> r.1.Some?
    ensures var got := GetAnthropicClient(slot, sv.env);
            && r.1 == got.1
            && (got.0.Failure? ==> r.0 == Failure(got.0.error))
            && (got.0.Success? ==>
                  var reply := sv.anthropic(AnthropicRequest(got.0.value.apiKey, DefaultAnthropicModel,
                                                             MaxTokens, prompt, image));
                  && (reply.Failure? ==> r.0 == Failure(reply.error))
                  && (reply.Success? ==> r.0 == FirstText(reply.value)))
  {
    var got := GetAnthropicClient(slot, sv.env);
    match got.0
    case Failure(e) => (Failure(e), got.1)
    case Success(client) =>
      match sv.anthropic(AnthropicRequest(client.apiKey, DefaultAnthropicModel, MaxTokens, prompt, image))
      case Failure(e) => (Failure(e), got.1)
      case Success(blocks) => (FirstText(blocks), got.1)
  }

  /** `analyzeInventoryImage`: the photo and the detection prompt for
      `location` go to the fixed model; the items are extracted from the
      reply, which is returned verbatim. */
  function AnalyzeInventoryImage(sv: Services, slot: Option<Client>, imageBase64: string,
                                 mimeType: string, location: string): (r: (Result<Llm.DetectResult, string>, Option<Client>))
    ensures slot.None? && !IsSet(sv.env.anthropicApiKey) ==> r == (Failure(MissingKeyError), None)
    ensures r.0.Success? ==> r.0.value.items == ExtractItems(r.0.value.rawResponse, sv.parse)
    ensures r.0.Success? ==> r.1.Some?
    ensures var asked := Ask(sv, slot, DetectItemsPrompt(location), Some(Image(imageBase64, mimeType)));
            && r.1 == asked.1
            && (r.0.Success? <==> asked.0.Success?)
            && (r.0.Success? ==> asked.0.value == r.0.value.rawResponse)
            && (r.0.Failure? ==> r.0.error == asked.0.error)
  {
    var asked := Ask(sv, slot, DetectItemsPrompt(location), Some(Image(imageBase64, mimeType)));
    match asked.0
    case Failure(e) => (Failure(e), asked.1)
    case Success(text) => (Success(Llm.DetectResult(ExtractItems(text, sv.parse), text)), asked.1)
  }

  /** With a conforming parser the detected items are always an array. */
  lemma AnalyzedItemsAreArray(sv: Services, slot: Option<Client>, imageBase64: string,
                              mimeType: string, location: string)
    requires WellShaped(sv.parse)
    ensures var r := AnalyzeInventoryImage(sv, slot, imageBase64, mimeType, location);
            r.0.Success? ==> r.0.value.items.JArr?
  {
    var r := AnalyzeInventoryImage(sv, slot, imageBase64, mimeType, location);
    if r.0.Success? {
      ExtractItemsAgreesWithGateway(r.0.value.rawResponse, sv.parse);
      Llm.ExtractItemsIsArray(r.0.value.rawResponse, sv.parse);
    }
  }

  /** `generateMealPlan`: the rendered inventory goes to the fixed model;
      the plan is extracted from the reply, which is returned verbatim. */
  function GenerateMealPlan(sv: Services, slot: Option<Client>, items: seq<Llm.PlanItem>): (r: (Result<Llm.PlanResult, string>, Option<Client>))
    ensures slot.None? && !IsSet(sv.env.anthropicApiKey) ==> r == (Failure(MissingKeyError), None)
    ensures r.0.Success? ==> r.0.value.plan == ExtractPlan(r.0.value.rawResponse, sv.parse)
    ensures r.0.Success? ==> r.1.Some?
    ensures var asked := Ask(sv, slot, MealPlanPrompt(Llm.RenderItemList(items)), None);
            && r.1 == asked.1
            && (r.0.Success? <==> asked.0.Success?)
            && (r.0.Success? ==> asked.0.value == r.0.value.rawResponse)
            && (r.0.Failure? ==> r.0.error == asked.0.error)
  {
    var asked := Ask(sv, slot, MealPlanPrompt(Llm.RenderItemList(items)), None);
    match asked.0
    case Failure(e) => (Failure(e), asked.1)
    case Success(text) => (Success(Llm.PlanResult(ExtractPlan(text, sv.parse), text)), asked.1)
  }

  /** With a client at hand, image analysis sends one request to the fixed
      model and returns the first block's text verbatim, with the items
      extracted from it; an SDK error fails the call. The client stays. */
  lemma AnalyzeReturnsReply(sv: Services, client: Client, imageBase64: string, mimeType: string, location: string)
    ensures var request := AnthropicRequest(client.apiKey, DefaultAnthropicModel, MaxTokens,
                                            DetectItemsPrompt(location), Some(Image(imageBase64, mimeType)));
            var reply := sv.anthropic(request);
            var r := AnalyzeInventoryImage(sv, Some(client), imageBase64, mimeType, location);
            && r.1 == Some(client)
            && (reply.Failure? ==> r.0 == Failure(reply.error))
            && (reply.Success? && |reply.value| > 0 && reply.value[0].TextBlock? ==>
                  var text := reply.value[0].text;
                  r.0 == Success(Llm.DetectResult(ExtractItems(text, sv.parse), text)))
  {
  }

  /** With a client at hand, meal planning sends one request to the fixed
      model and returns the first block's text verbatim, with the plan
      extracted from it; an SDK error fails the call. The client stays. */
  lemma PlanReturnsReply(sv: Services, client: Client, items: seq<Llm.PlanItem>)
    ensures var request := AnthropicRequest(client.apiKey, DefaultAnthropicModel, MaxTokens,
                                            MealPlanPrompt(Llm.RenderItemList(items)), None);
            var reply := sv.anthropic(request);
            var r := GenerateMealPlan(sv, Some(client), items);
            && r.1 == Some(client)
            && (reply.Failure? ==> r.0 == Failure(reply.error))
            && (reply.Success? && |reply.value| > 0 && reply.value[0].TextBlock? ==>
                  var text := reply.value[0].text;
                  r.0 == Success(Llm.PlanResult(ExtractPlan(text, sv.parse), text)))
  {
  }

  /** A reply whose first block is not text reads as "": no items, and an
      empty raw response. */
  lemma NonTextReplyIsEmpty(sv: Services, client: Client, imageBase64: string, mimeType: string, location: string)
    ensures var request := AnthropicRequest(client.apiKey, DefaultAnthropicModel, MaxTokens,
                                            DetectItemsPrompt(location), Some(Image(imageBase64, mimeType)));
            var reply := sv.anthropic(request);
            reply.Success? && |reply.value| > 0 && !reply.value[0].TextBlock? ==>
              AnalyzeInventoryImage(sv, Some(client), imageBase64, mimeType, location)
                == (Success(Llm.DetectResult(JArr([]), "")), Some(client))
  {
    assert MatchSpan("", ArrayOpen, ArrayClose).None?;
  }

  /** A reply with no content blocks at all fails with the `TypeError` of
      reading `content[0].type`. */
  lemma EmptyReplyFails(sv: Services, client: Client, items: seq<Llm.PlanItem>)
    ensures var request := AnthropicRequest(client.apiKey, DefaultAnthropicModel, MaxTokens,
                                            MealPlanPrompt(Llm.RenderItemList(items)), None);
            sv.anthropic(request) == Success([]) ==>
              GenerateMealPlan(sv, Some(client), items) == (Failure(NoContentError), Some(client))
  {
  }
}

=== FILE: backends.dfy ===
/** The boundary between the gateway and the two inference services: the
    local Ollama chat endpoint reached with `fetch`, and the hosted
    Anthropic messages API reached through its SDK client. The services
    themselves are parameters (functions from request to reply); what is
    modelled is how requests are formed and how replies are turned into
    text or errors. */
module Backends {
  import opened Wrappers
  import opened Strings
  import opened Env
  import opened Json

  /** The instruction sent to a model. Its fixed wording is not modelled;
      only the part that varies between calls is: the storage location named
      in an item-detection prompt, and the rendered inventory list embedded
      in a meal-plan prompt. */
  datatype Prompt = DetectItemsPrompt(location: string) | MealPlanPrompt(itemList: string)

  // ----- Ollama -----

  /** The body POSTed to `<baseUrl>/api/chat`: one user message, at most one
      attached image, streaming off. */
  datatype OllamaRequest = OllamaRequest(url: string, model: string, prompt: Prompt, images: seq<string>, stream: bool)

  /** What `fetch` yields: the `ok` flag and status, the body text read on
      failure, and `message.content` of the decoded body on success. */
  datatype OllamaReply = OllamaReply(ok: bool, status: nat, errorText: string, content: Option<string>)

  /** The Ollama server; `Failure` is a rejected `fetch` (network error). */
  type OllamaServer = OllamaRequest -> Result<OllamaReply, string>

  /** The request `ollamaChat` sends: the image is attached only when one is
      given and it is non-empty. */
  function OllamaChatRequest(baseUrl: string, model: string, prompt: Prompt, imageBase64: Option<string>): (q: OllamaRequest)
    ensures q.url == baseUrl + "/api/chat" && q.model == model && q.prompt == prompt && !q.stream
    ensures |q.images| <= 1
    ensures |q.images| == 1 <==> IsSet(imageBase64)
    ensures |q.images| == 1 ==> q.images[0] == imageBase64.value
  {
    OllamaRequest(baseUrl + "/api/chat", model, prompt, if IsSet(imageBase64) then [imageBase64.value] else [], false)
  }

  /** The error `ollamaChat` throws for a non-2xx reply. */
  function OllamaError(status: nat, errorText: string): string {
    "Ollama error (" + NatToString(status) + "): " + errorText
  }

  /** `ollamaChat`: a non-2xx reply is a failure carrying status and body;
      a successful reply yields its message content, or "" when it has none. */
  function OllamaChat(server: OllamaServer, baseUrl: string, model: string, prompt: Prompt, imageBase64: Option<string>): (r: Result<string, string>)
    ensures var reply := server(OllamaChatRequest(baseUrl, model, prompt, imageBase64));
            && (reply.Failure? ==> r == Failure(reply.error))
            && (reply.Success? && !reply.value.ok ==> r == Failure(OllamaError(reply.value.status, reply.value.errorText)))
            && (reply.Success? && reply.value.ok ==> r == Success(OrElse(reply.value.content, "")))
  {
    match server(OllamaChatRequest(baseUrl, model, prompt, imageBase64))
    case Failure(e) => Failure(e)
    case Success(reply) =>
      if !reply.ok then Failure(OllamaError(reply.status, reply.errorText))
      else Success(OrElse(reply.content, ""))
  }

  // ----- Anthropic -----

  const MaxTokens: nat := 4096
  const DefaultAnthropicModel: string := "claude-sonnet-4-20250514"

  /** The SDK client; it holds the API key it was built with. */
  datatype Client = Client(apiKey: string)

  /** An image attached as a base64 content block. */
  datatype Image = Image(base64: string, mediaType: string)

  /** One `messages.create` call: a single user turn with the prompt and,
      for vision calls, the image. */
  datatype AnthropicRequest = AnthropicRequest(apiKey: string, model: string, maxTokens: nat, prompt: Prompt, image: Option<Image>)

  /** A content block of the reply. */
  datatype ContentBlock = TextBlock(text: string) | OtherBlock(kind: string)

  /** The messages API; `Failure` is an error thrown by the SDK. */
  type AnthropicApi = AnthropicRequest -> Result<seq<ContentBlock>, string>

  /** The `TypeError` raised by reading `content[0].type` of a reply with no
      content blocks. */
  const NoContentError: string := "Cannot read properties of undefined (reading 'type')"

  /** `content[0].type === "text" ? content[0].text : ""`. */
  function FirstText(blocks: seq<ContentBlock>): (r: Result<string, string>)
    ensures |blocks| == 0 <==> r.Failure?
    ensures |blocks| > 0 && blocks[0].TextBlock? ==> r == Success(blocks[0].text)
    ensures |blocks| > 0 && !blocks[0].TextBlock? ==> r == Success("")
  {
    if |blocks| == 0 then Failure(NoContentError)
    else match blocks[0]
      case TextBlock(t) => Success(t)
      case OtherBlock(_) => Success("")
  }

  /** The lazily built, process-wide client: `getAnthropicClient`. An
      existing client is returned as is; otherwise one is built from the key
      and remembered, or, with no key, the call fails with `missingKey` and
      nothing is remembered. Returns the outcome and the new slot. */
  function LazyClient(slot: Option<Client>, apiKey: Option<string>, missingKey: string): (r: (Result<Client, string>, Option<Client>))
    ensures slot.Some? ==> r == (Success(slot.value), slot)
    ensures slot.None? && !IsSet(apiKey) ==> r == (Failure(missingKey), None)
    ensures slot.None? && IsSet(apiKey) ==> r == (Success(Client(apiKey.value)), Some(Client(apiKey.value)))
  {
    if slot.Some? then (Success(slot.value), slot)
    else if !IsSet(apiKey) then (Failure(missingKey), None)
    else (Success(Client(apiKey.value)), Some(Client(apiKey.value)))
  }

  /** Once a call has produced a client, every later call returns that same
      client and leaves the slot alone, whatever the key says by then. */
  lemma LazyClientIsSingleton(slot: Option<Client>, key1: Option<string>, key2: Option<string>, m1: string, m2: string)
    requires LazyClient(slot, key1, m1).0.Success?
    ensures var first := LazyClient(slot, key1, m1);
            LazyClient(first.1, key2, m2) == first
  {
  }

  /** Everything the gateway consumes from its environment: the variables,
      `JSON.parse`, and the two services. */
  datatype Services = Services(env: Env, parse: Parser, ollama: OllamaServer, anthropic: AnthropicApi)
}

=== FILE: detected_items_review.dfy ===
/** `src/components/food/detected-items-review.tsx`: the review list shown
    after an upload. Every detected item starts selected; the user toggles
    items, adds missing ones by name, and confirms, which posts the
    selected items to the inventory `POST` handler. */
module DetectedItemsReview {
  import opened Wrappers
  import opened Strings
  import opened Seqs
  import InventoryRoute

  /** An item as detection reports it. */
  datatype DetectedItem = DetectedItem(name: string, quantity: string, expiryEstimate: string)

  /** A list entry: the item, whether it is selected, and its key. */
  datatype ReviewItem = ReviewItem(item: DetectedItem, selected: bool, id: nat)

  /** The component state: the list and the text of the "add" input. */
  datatype Review = Review(items: seq<ReviewItem>, newItemName: string)

  const AddedQuantity: string := "1"
  const AddedExpiry: string := "N/A"

  /** No two entries share a key. */
  predicate DistinctIds(items: seq<ReviewItem>) {
    forall i, j :: 0 <= i < j < |items| ==> items[i].id != items[j].id
  }

  /** The initial state: every detected item, selected, keyed by its
      position; the input is empty. */
  function Initial(detected: seq<DetectedItem>): (r: Review)
    ensures |r.items| == |detected| && r.newItemName == ""
    ensures forall i :: 0 <= i < |detected| ==> r.items[i].item == detected[i] && r.items[i].selected
    ensures forall i :: 0 <= i < |detected| ==> r.items[i].id == i
    ensures DistinctIds(r.items)
  {
    Review(seq(|detected|, i requires 0 <= i < |detected| => ReviewItem(detected[i], true, i)), "")
  }

  function Flip(item: ReviewItem, id: nat): ReviewItem {
    if item.id == id then item.(selected := !item.selected) else item
  }

  /** `toggleItem(id)`: flips the selection of every entry keyed `id` and
      leaves everything else as it was. */
  function Toggle(r: Review, id: nat): (t: Review)
    ensures t.newItemName == r.newItemName && |t.items| == |r.items|
    ensures forall i :: 0 <= i < |r.items| ==>
              && t.items[i].item == r.items[i].item
              && t.items[i].id == r.items[i].id
              && (t.items[i].selected <==> (r.items[i].selected != (r.items[i].id == id)))
  {
    Review(Map(r.items, (item: ReviewItem) => Flip(item, id)), r.newItemName)
  }

  /** Toggling the same key twice restores the state. */
  lemma ToggleTwice(r: Review, id: nat)
    ensures Toggle(Toggle(r, id), id) == r
  {
    var t := Toggle(Toggle(r, id), id);
    assert forall i :: 0 <= i < |r.items| ==> t.items[i] == r.items[i];
  }

  /** With distinct keys, toggling entry `k` flips it alone. */
  lemma ToggleFlipsOne(r: Review, k: nat)
    requires DistinctIds(r.items) && k < |r.items|
    ensures var t := Toggle(r, r.items[k].id);
            && t.items[k].selected == !r.items[k].selected
            && forall i :: 0 <= i < |r.items| && i != k ==> t.items[i] == r.items[i]
  {
  }

  /** `addItem()`: a blank input changes nothing; otherwise a selected entry
      with the trimmed name, quantity "1" and expiry "N/A", keyed by the
      current time, is appended and the input cleared. */
  function AddItem(r: Review, now: nat): (t: Review)
    ensures AllWhitespace(r.newItemName) ==> t == r
    ensures !AllWhitespace(r.newItemName) ==>
              && t.newItemName == ""
              && t.items == r.items + [ReviewItem(DetectedItem(Trim(r.newItemName), AddedQuantity, AddedExpiry), true, now)]
              && |Trim(r.newItemName)| > 0
              && !IsWhitespace(Trim(r.newItemName)[0])
  {
    TrimEmptyIffBlank(r.newItemName);
    TrimSpec(r.newItemName);
    var name := Trim(r.newItemName);
    if name == "" then r
    else Review(r.items + [ReviewItem(DetectedItem(name, AddedQuantity, AddedExpiry), true, now)], "")
  }

  /** Adding under a key no entry has keeps keys distinct. */
  lemma AddKeepsDistinct(r: Review, now: nat)
    requires DistinctIds(r.items)
    requires forall i :: 0 <= i < |r.items| ==> r.items[i].id != now
    ensures DistinctIds(AddItem(r, now).items)
  {
  }

  function IsSelected(item: ReviewItem): bool {
    item.selected
  }

  /** The entries `handleConfirm` sends, in list order. */
  function Selected(r: Review): (s: seq<ReviewItem>)
    ensures |s| <= |r.items|
    ensures forall i :: 0 <= i < |s| ==> s[i].selected && s[i] in r.items
    ensures forall i :: 0 <= i < |r.items| && r.items[i].selected ==> r.items[i] in s
  {
    Filter(r.items, IsSelected)
  }

  /** Right after the initial state every detected item is selected. */
  lemma InitiallyAllSelected(detected: seq<DetectedItem>)
    ensures Selected(Initial(detected)) == Initial(detected).items
  {
    FilterKeepsAll(Initial(detected).items, IsSelected);
  }

  /** An item as `JSON.stringify` sends it to the inventory handler. */
  function ToPosted(item: ReviewItem): (p: InventoryRoute.PostedItem)
    ensures p.name == Some(item.item.name)
    ensures p.quantity == Some(item.item.quantity)
    ensures p.expiryEstimate == Some(item.item.expiryEstimate)
  {
    InventoryRoute.PostedItem(Some(item.item.name), Some(item.item.quantity), Some(item.item.expiryEstimate))
  }

  /** The request body: the selected items and the location. */
  function ConfirmBody(r: Review, location: string): (b: InventoryRoute.PostBody)
    ensures b.location == Some(location)
    ensures b.items.Some? && |b.items.value| == |Selected(r)|
    ensures forall k :: 0 <= k < |Selected(r)| ==> b.items.value[k] == ToPosted(Selected(r)[k])
  {
    InventoryRoute.PostBody(Some(Map(Selected(r), ToPosted)), Some(location))
  }

  /** `handleConfirm()` against the inventory handler: the review closes
      exactly when the handler answers with success. */
  function Confirm(r: Review, location: string, table: InventoryRoute.Table, now: nat): (c: (bool, InventoryRoute.Table))
    ensures c.1 == InventoryRoute.Post(table, Some(ConfirmBody(r, location)), now).1
    ensures c.0 <==> InventoryRoute.Post(table, Some(ConfirmBody(r, location)), now).0.Saved?
  {
    var posted := InventoryRoute.Post(table, Some(ConfirmBody(r, location)), now);
    (posted.0.Saved?, posted.1)
  }

  /** Confirming always succeeds and appends exactly the selected items,
      in order, as the button's count promised: each stored under the
      location with its name, quantity and expiry. */
  lemma ConfirmStoresSelected(r: Review, location: string, table: InventoryRoute.Table, now: nat)
    ensures var c := Confirm(r, location, table, now);
            var sel := Selected(r);
            && c.0
            && |c.1.rows| == |table.rows| + |sel|
            && c.1.rows[..|table.rows|] == table.rows
            && forall k :: 0 <= k < |sel| ==>
                 var row := c.1.rows[|table.rows| + k];
                 && row.name == sel[k].item.name
                 && row.category == location
                 && row.quantity == Some(sel[k].item.quantity)
                 && row.expiryEstimate == Some(sel[k].item.expiryEstimate)
  {
    var sel := Selected(r);
    var items := Map(sel, ToPosted);
    assert ConfirmBody(r, location) == InventoryRoute.PostBody(Some(items), Some(location));
    InventoryRoute.PostAllNamed(table, items, location, now);
    var posted := InventoryRoute.Post(table, Some(ConfirmBody(r, location)), now);
    var inserted := posted.0.items;
    forall k | 0 <= k < |sel|
      ensures posted.1.rows[|table.rows| + k] == inserted[k]
      ensures InventoryRoute.StoredAs(inserted[k], ToPosted(sel[k]), Some(location))
    {
      assert items[k] == ToPosted(sel[k]);
    }
    assert posted.1.rows[..|table.rows|] == table.rows;
  }
}

=== FILE: env.dfy ===
/** The process environment the gateway reads. A variable is either unset
    or holds a string; JavaScript truthiness makes an empty string behave
    exactly like an unset variable (`Strings.IsSet`). */
module Env {
  import opened Wrappers

  /** The variables the gateway consults. */
  datatype Env = Env(
    llmProvider: Option<string>,        // LLM_PROVIDER
    ollamaBaseUrl: Option<string>,      // OLLAMA_BASE_URL
    ollamaTextModel: Option<string>,    // OLLAMA_TEXT_MODEL
    ollamaVisionModel: Option<string>,  // OLLAMA_VISION_MODEL
    anthropicApiKey: Option<string>,    // ANTHROPIC_API_KEY
    anthropicModel: Option<string>)     // ANTHROPIC_MODEL
}

=== FILE: inventory_list.dfy ===
/** `src/components/food/inventory-list.tsx`: the inventory table with one
    tab per category and an "all" tab, each labelled with how many rows it
    lists. */
module InventoryList {
  import opened Seqs
  import opened InventoryRoute

  const All: string := "all"
  const Pantry: string := "pantry"
  const Fridge: string := "fridge"
  const Freezer: string := "freezer"

  /** The tabs, in display order. */
  const Tabs: seq<string> := [All, Pantry, Fridge, Freezer]

  function InCategory(c: string): Row -> bool {
    (row: Row) => row.category == c
  }

  /** The rows a tab lists: every row for "all", otherwise exactly the
      rows of that category, in table order. */
  function FilterItems(items: seq<Row>, tab: string): (r: seq<Row>)
    ensures tab == All ==> r == items
    ensures tab != All ==>
              && |r| <= |items|
              && (forall i :: 0 <= i < |r| ==> r[i] in items && r[i].category == tab)
              && (forall i :: 0 <= i < |items| && items[i].category == tab ==> items[i] in r)
  {
    if tab == All then items else Filter(items, InCategory(tab))
  }

  /** The `categoryCounts` reduce: one entry per tab, each the number of
      rows that tab lists. */
  method CategoryCounts(items: seq<Row>) returns (counts: map<string, nat>)
    ensures forall k :: 0 <= k < |Tabs| ==> Tabs[k] in counts
    ensures forall c :: c in counts ==> c in Tabs
    ensures forall c :: c in counts ==> counts[c] == |FilterItems(items, c)|
    ensures All in counts && counts[All] == |items|
  {
    counts := map[];
    var i := 0;
    while i < |Tabs|
      invariant 0 <= i <= |Tabs|
      invariant forall k :: 0 <= k < i ==> Tabs[k] in counts
      invariant counts.Keys <= set k | 0 <= k < i :: Tabs[k]
      invariant forall c :: c in counts ==> counts[c] == |FilterItems(items, c)|
    {
      var tab := Tabs[i];
      var n := if tab == All then |items| else |Filter(items, InCategory(tab))|;
      assert n == |FilterItems(items, tab)|;
      counts := counts[tab := n];
      i := i + 1;
    }
    assert Tabs[0] == All;
  }

  predicate IsKnownCategory(c: string) {
    c == Pantry || c == Fridge || c == Freezer
  }

  /** The three category tabs together never list more rows than "all",
      and list exactly as many when every row has one of the three
      categories. */
  lemma {:induction false} CategoryCountsAddUp(items: seq<Row>)
    ensures |FilterItems(items, Pantry)| + |FilterItems(items, Fridge)| + |FilterItems(items, Freezer)| <= |items|
    ensures (forall i :: 0 <= i < |items| ==> IsKnownCategory(items[i].category)) ==>
              |FilterItems(items, Pantry)| + |FilterItems(items, Fridge)| + |FilterItems(items, Freezer)| == |items|
    decreases |items|
  {
    if |items| > 0 {
      CategoryCountsAddUp(items[1..]);
      assert forall i :: 0 <= i < |items[1..]| ==> items[1..][i] == items[i + 1];
    }
  }
}

=== FILE: inventory_route.dfy ===
/** `src/app/api/food/inventory/route.ts`: listing, saving and deleting
    inventory rows. The `inventory_items` table is a sequence of rows in id
    order together with the next AUTOINCREMENT id. */
module InventoryRoute {
  import opened Wrappers
  import opened Strings
  import opened Seqs

  /** A row of `inventory_items`; `addedAt` is the insertion time. */
  datatype Row = Row(id: nat, name: string, category: string, quantity: Option<string>,
                     addedAt: nat, expiryEstimate: Option<string>, notes: Option<string>)

  /** The table and the id the next insertion receives. */
  datatype Table = Table(rows: seq<Row>, nextId: nat)

  const EmptyTable: Table := Table([], 1)

  /** Ids are positive, below `nextId`, and strictly increase along the
      rows; in particular no two rows share an id. */
  predicate Valid(t: Table) {
    && t.nextId > 0
    && (forall i :: 0 <= i < |t.rows| ==> 0 < t.rows[i].id < t.nextId)
    && (forall i, j :: 0 <= i < j < |t.rows| ==> t.rows[i].id < t.rows[j].id)
  }

  predicate IdsIncrease(rows: seq<Row>) {
    forall i, j :: 0 <= i < j < |rows| ==> rows[i].id < rows[j].id
  }

  /** A row with a smaller id than every row of an increasing run can lead it. */
  lemma ConsKeepsIdsIncreasing(row: Row, rest: seq<Row>)
    requires IdsIncrease(rest)
    requires forall j :: 0 <= j < |rest| ==> row.id < rest[j].id
    ensures IdsIncrease([row] + rest)
  {
    var rows := [row] + rest;
    forall i, j | 0 <= i < j < |rows| ensures rows[i].id < rows[j].id {
      assert rows[j] == rest[j - 1];
      if i > 0 {
        assert rows[i] == rest[i - 1];
      }
    }
  }

  /** Removing rows keeps ids increasing. */
  lemma {:induction false} FilterKeepsIdsIncreasing(rows: seq<Row>, p: Row -> bool)
    requires IdsIncrease(rows)
    ensures IdsIncrease(Filter(rows, p))
    decreases |rows|
  {
    if |rows| > 0 {
      var tail := rows[1..];
      var rest := Filter(tail, p);
      FilterKeepsIdsIncreasing(tail, p);
      if p(rows[0]) {
        forall j | 0 <= j < |rest| ensures rows[0].id < rest[j].id {
          assert rest[j] in tail;
        }
        ConsKeepsIdsIncreasing(rows[0], rest);
        assert Filter(rows, p) == [rows[0]] + rest;
      } else {
        assert Filter(rows, p) == rest;
      }
    }
  }

  /** Removing rows keeps a table valid. */
  lemma FilterKeepsValid(t: Table, p: Row -> bool)
    requires Valid(t)
    ensures Valid(Table(Filter(t.rows, p), t.nextId))
  {
    FilterKeepsIdsIncreasing(t.rows, p);
  }

  // ----- GET -----

  /** The replies of the three handlers. */
  datatype Response =
    | Listed(items: seq<Row>)
    | Saved(items: seq<Row>, count: nat)
    | Deleted
    | BadRequest(error: string)
    | ServerError(error: string)

  /** `GET`: every row of the table. */
  function Get(t: Table): (r: Response)
    ensures r.Listed? && r.items == t.rows
  {
    Listed(t.rows)
  }

  // ----- POST -----

  const ItemsRequired: string := "Items array required"
  const SaveFailed: string := "Failed to save inventory"

  /** One element of the posted `items` array; an absent field is `None`. */
  datatype PostedItem = PostedItem(name: Option<string>, quantity: Option<string>, expiryEstimate: Option<string>)

  /** The decoded request body: `items` is `None` when it is missing or not
      an array. */
  datatype PostBody = PostBody(items: Option<seq<PostedItem>>, location: Option<string>)

  /** The row stored for `item`: its name, quantity and expiry, with the
      location as category. */
  predicate StoredAs(row: Row, item: PostedItem, location: Option<string>) {
    && item.name == Some(row.name)
    && location == Some(row.category)
    && row.quantity == item.quantity
    && row.expiryEstimate == item.expiryEstimate
    && row.notes.None?
  }

  /** The outcome of inserting items one at a time. */
  datatype Insertion = Insertion(inserted: seq<Row>, table: Table, ok: bool)

  /** The rows the insert loop creates, starting at id `nextId`: one per
      item, in order, with consecutive ids. An item without a name (or a
      missing location) violates NOT NULL: the loop stops there (`false`),
      and the rows created before it remain. */
  function InsertRows(nextId: nat, items: seq<PostedItem>, location: Option<string>, now: nat): (r: (seq<Row>, bool))
    ensures |r.0| <= |items|
    ensures forall k :: 0 <= k < |r.0| ==>
              StoredAs(r.0[k], items[k], location) && r.0[k].id == nextId + k && r.0[k].addedAt == now
    ensures r.1 <==> |r.0| == |items|
    ensures !r.1 ==> items[|r.0|].name.None? || location.None?
    decreases |items|
  {
    if |items| == 0 then ([], true)
    else if items[0].name.None? || location.None? then ([], false)
    else
      var item := items[0];
      var row := Row(nextId, item.name.value, location.value, item.quantity, now, item.expiryEstimate, None);
      var rest := InsertRows(nextId + 1, items[1..], location, now);
      ([row] + rest.0, rest.1)
  }

  /** The insert loop against the table: the created rows are appended and
      `nextId` moves past them. */
  function InsertAll(t: Table, items: seq<PostedItem>, location: Option<string>, now: nat): (r: Insertion)
    ensures r.table.rows == t.rows + r.inserted
    ensures r.table.nextId == t.nextId + |r.inserted|
    ensures |r.inserted| <= |items|
    ensures forall k :: 0 <= k < |r.inserted| ==>
              StoredAs(r.inserted[k], items[k], location)
              && r.inserted[k].id == t.nextId + k && r.inserted[k].addedAt == now
    ensures r.ok <==> |r.inserted| == |items|
    ensures !r.ok ==> items[|r.inserted|].name.None? || location.None?
  {
    var created := InsertRows(t.nextId, items, location, now);
    Insertion(created.0, Table(t.rows + created.0, t.nextId + |created.0|), created.1)
  }

  /** Appending rows that carry the next ids in order keeps a table valid. */
  lemma AppendFreshKeepsValid(t: Table, added: seq<Row>)
    requires Valid(t)
    requires forall k :: 0 <= k < |added| ==> added[k].id == t.nextId + k
    ensures Valid(Table(t.rows + added, t.nextId + |added|))
  {
    var rows := t.rows + added;
    forall i | |t.rows| <= i < |rows| ensures rows[i].id == t.nextId + (i - |t.rows|) {
      assert rows[i] == added[i - |t.rows|];
    }
  }

  /** Inserting keeps a table valid. */
  lemma InsertAllKeepsValid(t: Table, items: seq<PostedItem>, location: Option<string>, now: nat)
    requires Valid(t)
    ensures Valid(InsertAll(t, items, location, now).table)
  {
    var r := InsertAll(t, items, location, now);
    AppendFreshKeepsValid(t, r.inserted);
  }

  /** `POST`: a body that cannot be decoded is a server error; a missing or
      non-array `items` is a 400 that changes nothing; otherwise every item
      is inserted and the reply lists the new rows and their number. */
  function Post(t: Table, body: Option<PostBody>, now: nat): (r: (Response, Table))
    ensures body.None? ==> r == (ServerError(SaveFailed), t)
    ensures body.Some? && body.value.items.None? ==> r == (BadRequest(ItemsRequired), t)
    ensures r.0.Saved? ==>
              body.Some? && body.value.items.Some?
              && r.0.count == |r.0.items| == |body.value.items.value|
              && r.1.rows == t.rows + r.0.items
              && forall k :: 0 <= k < |r.0.items| ==> StoredAs(r.0.items[k], body.value.items.value[k], body.value.location)
    ensures body.Some? && body.value.items.Some? ==>
              (r.0.Saved? <==> forall k :: 0 <= k < |body.value.items.value| ==>
                                 body.value.items.value[k].name.Some? && body.value.location.Some?)
    ensures body.Some? && body.value.items.Some? ==>
              r.1 == InsertAll(t, body.value.items.value, body.value.location, now).table
    ensures body.Some? && body.value.items.Some? && !r.0.Saved? ==> r.0 == ServerError(SaveFailed)
    ensures Valid(t) ==> Valid(r.1)
  {
    match body
    case None => (ServerError(SaveFailed), t)
    case Some(b) =>
      match b.items
      case None => (BadRequest(ItemsRequired), t)
      case Some(items) =>
        var ins := InsertAll(t, items, b.location, now);
        assert Valid(t) ==> Valid(ins.table) by {
          if Valid(t) {
            InsertAllKeepsValid(t, items, b.location, now);
          }
        }
        if ins.ok then (Saved(ins.inserted, |ins.inserted|), ins.table)
        else (ServerError(SaveFailed), ins.table)
  }

  /** A body whose items all have names and that names a location is
      always saved in full. */
  lemma PostAllNamed(t: Table, items: seq<PostedItem>, location: string, now: nat)
    requires forall k :: 0 <= k < |items| ==> items[k].name.Some?
    ensures var r := Post(t, Some(PostBody(Some(items), Some(location))), now);
            && r.0.Saved?
            && |r.0.items| == |items|
            && r.1.rows == t.rows + r.0.items
            && forall k :: 0 <= k < |items| ==> StoredAs(r.0.items[k], items[k], Some(location))
  {
  }

  /** After a successful `POST`, `GET` lists the old rows followed by the
      new ones. */
  lemma GetAfterPost(t: Table, body: Option<PostBody>, now: nat)
    requires Post(t, body, now).0.Saved?
    ensures Get(Post(t, body, now).1) == Listed(t.rows + Post(t, body, now).0.items)
  {
  }

  /** A failing item leaves the rows before it in the table: the handler
      inserts outside any transaction. */
  lemma PartialInsertOnFailure()
    ensures var items := [PostedItem(Some("Milk"), None, None), PostedItem(None, None, None)];
            var r := Post(EmptyTable, Some(PostBody(Some(items), Some("fridge"))), 0);
            r.0 == ServerError(SaveFailed) && |r.1.rows| == 1 && r.1.rows[0].name == "Milk"
  {
    var items := [PostedItem(Some("Milk"), None, None), PostedItem(None, None, None)];
    var ins := InsertAll(EmptyTable, items, Some("fridge"), 0);
    assert !ins.ok;
    assert |ins.inserted| == 1;
  }

  // ----- DELETE -----

  /** The `id` and `category` search parameters. */
  datatype DeleteQuery = DeleteQuery(id: Option<string>, category: Option<string>)

  /** Which rows a `DELETE` keeps: with an `id`, every row whose id differs
      from `parseInt(id)` (all rows when that is `NaN`); else, with a
      `category`, every row of another category; else none. */
  predicate Keeps(q: DeleteQuery, row: Row) {
    if IsSet(q.id) then
      (match ParseInt(q.id.value)
       case None => true
       case Some(n) => row.id != n)
    else if IsSet(q.category) then row.category != q.category.value
    else false
  }

  /** `Keeps` as the callback handed to `Filter`. */
  function KeepsFn(q: DeleteQuery): Row -> bool {
    (row: Row) => Keeps(q, row)
  }

  /** `DELETE`: removes the rows the query selects and always succeeds. */
  function Delete(t: Table, q: DeleteQuery): (r: (Response, Table))
    ensures r.0 == Deleted && r.1.nextId == t.nextId
    ensures IsSet(q.id) && ParseInt(q.id.value).Some? ==>
              var n := ParseInt(q.id.value).value;
              && (forall i :: 0 <= i < |r.1.rows| ==> r.1.rows[i] in t.rows && r.1.rows[i].id != n)
              && (forall i :: 0 <= i < |t.rows| && t.rows[i].id != n ==> t.rows[i] in r.1.rows)
    ensures IsSet(q.id) && ParseInt(q.id.value).None? ==> r.1 == t
    ensures !IsSet(q.id) && IsSet(q.category) ==>
              && (forall i :: 0 <= i < |r.1.rows| ==> r.1.rows[i] in t.rows && r.1.rows[i].category != q.category.value)
              && (forall i :: 0 <= i < |t.rows| && t.rows[i].category != q.category.value ==> t.rows[i] in r.1.rows)
    ensures !IsSet(q.id) && !IsSet(q.category) ==> r.1.rows == []
    ensures Valid(t) ==> Valid(r.1)
  {
    var kept := Filter(t.rows, KeepsFn(q));
    assert Valid(t) ==> Valid(Table(kept, t.nextId)) by {
      if Valid(t) {
        FilterKeepsValid(t, KeepsFn(q));
      }
    }
    assert IsSet(q.id) && ParseInt(q.id.value).None? ==> kept == t.rows by {
      if IsSet(q.id) && ParseInt(q.id.value).None? {
        FilterKeepsAll(t.rows, KeepsFn(q));
      }
    }
    assert !IsSet(q.id) && !IsSet(q.category) ==> kept == [] by {
      if !IsSet(q.id) && !IsSet(q.category) {
        FilterKeepsNone(t.rows, KeepsFn(q));
      }
    }
    (Deleted, Table(kept, t.nextId))
  }

  /** An `id` takes precedence: the `category` is then ignored. */
  lemma IdTakesPrecedence(t: Table, id: string, c1: Option<string>, c2: Option<string>)
    requires |id| > 0
    ensures Delete(t, DeleteQuery(Some(id), c1)) == Delete(t, DeleteQuery(Some(id), c2))
  {
    FilterAgrees(t.rows, KeepsFn(DeleteQuery(Some(id), c1)), KeepsFn(DeleteQuery(Some(id), c2)));
  }

  /** A query naming the decimal rendering of `n` keeps exactly the rows
      whose id is not `n`. */
  lemma KeepsRenderedId(n: nat, row: Row)
    ensures Keeps(DeleteQuery(Some(NatToString(n)), None), row) == (row.id != n)
  {
    ParseIntOfNatToString(n);
  }

  /** The row removal the inventory list triggers (`?id=${row.id}`) removes
      exactly that row from a valid table and keeps the others in order. */
  lemma DeleteRenderedIdRemovesOneRow(t: Table, i: nat)
    requires Valid(t) && i < |t.rows|
    ensures Delete(t, DeleteQuery(Some(NatToString(t.rows[i].id)), None)).1.rows
            == t.rows[..i] + t.rows[i + 1..]
  {
    var n := t.rows[i].id;
    var q := DeleteQuery(Some(NatToString(n)), None);
    forall k | 0 <= k < |t.rows| ensures KeepsFn(q)(t.rows[k]) == (k != i) {
      KeepsRenderedId(n, t.rows[k]);
    }
    FilterDropsOne(t.rows, i, KeepsFn(q));
  }
}

=== FILE: json.dfy ===
/** JSON values as `JSON.parse` produces them, and the assumptions the
    model makes about the parser. The parser itself is not modelled: every
    operation that parses takes it as a parameter. */
module Json {
  import opened Wrappers

  /** A parsed JSON value. Numbers are kept as integers. */
  datatype Json =
    | JNull
    | JBool(b: bool)
    | JNum(n: int)
    | JStr(s: string)
    | JArr(elems: seq<Json>)
    | JObj(fields: seq<(string, Json)>)

  /** JavaScript truthiness of a parsed value: `null`, `false`, `0` and
      `""` are falsy; every array and object is truthy. */
  predicate Truthy(v: Json) {
    match v
    case JNull => false
    case JBool(b) => b
    case JNum(n) => n != 0
    case JStr(s) => |s| > 0
    case JArr(_) => true
    case JObj(_) => true
  }

  /** `JSON.parse`: a partial function, `None` standing for a thrown
      `SyntaxError`. */
  type Parser = string -> Option<Json>

  /** `JSON.stringify`. */
  type Serializer = Json -> string

  /** What every conforming `JSON.parse` guarantees and the extraction code
      relies on implicitly: text that begins with `[` can only parse to an
      array, and text that begins with `{` only to an object. */
  ghost predicate WellShaped(parse: Parser) {
    forall s :: |s| > 0 && parse(s).Some? ==>
      (s[0] == '[' ==> parse(s).value.JArr?) && (s[0] == '{' ==> parse(s).value.JObj?)
  }

  /** The `{days: [], grocery_list: []}` meal plan used when a reply holds no
      usable plan. */
  const EmptyPlan: Json := JObj([("days", JArr([])), ("grocery_list", JArr([]))])
}

=== FILE: llm.dfy ===
/** The provider-agnostic gateway of `src/lib/llm.ts`: choosing a backend
    from the environment, the Ollama defaults, rendering the inventory
    into the meal-plan prompt, and extracting JSON from the reply with a
    silent fallback to an empty result. */
module Llm {
  import opened Wrappers
  import opened Strings
  import opened Seqs
  import opened Env
  import opened Json
  import opened Span
  import opened Backends

  datatype Provider = Ollama | Anthropic

  const NoProviderError: string :=
    "No LLM provider configured. Set OLLAMA_BASE_URL or ANTHROPIC_API_KEY in .env.local"
  const MissingKeyError: string := "ANTHROPIC_API_KEY is not set"

  const DefaultBaseUrl: string := "http://localhost:11434"
  const DefaultTextModel: string := "qwen2.5:14b"
  const DefaultVisionModel: string := "llama3.2-vision"

  /** `LLM_PROVIDER` names one of the two backends exactly. */
  predicate IsOverride(v: Option<string>) {
    v == Some("anthropic") || v == Some("ollama")
  }

  /** `getProvider`: an explicit `LLM_PROVIDER` wins; otherwise a configured
      Ollama address is preferred over an Anthropic key; with neither, the
      choice fails. */
  function GetProvider(env: Env): (r: Result<Provider, string>)
    ensures r == Success(Anthropic) <==>
              env.llmProvider == Some("anthropic")
              || (!IsOverride(env.llmProvider) && !IsSet(env.ollamaBaseUrl) && IsSet(env.anthropicApiKey))
    ensures r == Success(Ollama) <==>
              env.llmProvider == Some("ollama")
              || (!IsOverride(env.llmProvider) && IsSet(env.ollamaBaseUrl))
    ensures r.Failure? <==>
              !IsOverride(env.llmProvider) && !IsSet(env.ollamaBaseUrl) && !IsSet(env.anthropicApiKey)
    ensures r.Failure? ==> r.error == NoProviderError
  {
    if env.llmProvider == Some("anthropic") then Success(Anthropic)
    else if env.llmProvider == Some("ollama") then Success(Ollama)
    else if IsSet(env.ollamaBaseUrl) then Success(Ollama)
    else if IsSet(env.anthropicApiKey) then Success(Anthropic)
    else Failure(NoProviderError)
  }

  /** A recognised override decides alone: two environments that agree on it
      choose the same backend whatever else they hold. */
  lemma OverrideDecides(env1: Env, env2: Env)
    requires IsOverride(env1.llmProvider) && env1.llmProvider == env2.llmProvider
    ensures GetProvider(env1) == GetProvider(env2)
    ensures GetProvider(env1).Success?
  {
  }

  /** Without an override, the choice depends only on which of the Ollama
      address and the Anthropic key are set. */
  lemma AutoDetectDependsOnlyOnWhatIsSet(env1: Env, env2: Env)
    requires !IsOverride(env1.llmProvider) && !IsOverride(env2.llmProvider)
    requires IsSet(env1.ollamaBaseUrl) == IsSet(env2.ollamaBaseUrl)
    requires IsSet(env1.anthropicApiKey) == IsSet(env2.anthropicApiKey)
    ensures GetProvider(env1) == GetProvider(env2)
  {
  }

  /** The Ollama settings in use. */
  datatype OllamaConfig = OllamaConfig(baseUrl: string, textModel: string, visionModel: string)

  /** `getOllamaConfig`: each setting falls back to its default when unset
      or empty; a set value is used unchanged. Every resulting setting is
      therefore non-empty. */
  function GetOllamaConfig(env: Env): (r: OllamaConfig)
    ensures IsSet(env.ollamaBaseUrl) ==> r.baseUrl == env.ollamaBaseUrl.value
    ensures !IsSet(env.ollamaBaseUrl) ==> r.baseUrl == DefaultBaseUrl
    ensures IsSet(env.ollamaTextModel) ==> r.textModel == env.ollamaTextModel.value
    ensures !IsSet(env.ollamaTextModel) ==> r.textModel == DefaultTextModel
    ensures IsSet(env.ollamaVisionModel) ==> r.visionModel == env.ollamaVisionModel.value
    ensures !IsSet(env.ollamaVisionModel) ==> r.visionModel == DefaultVisionModel
    ensures |r.baseUrl| > 0 && |r.textModel| > 0 && |r.visionModel| > 0
  {
    OllamaConfig(
      OrElse(env.ollamaBaseUrl, DefaultBaseUrl),
      OrElse(env.ollamaTextModel, DefaultTextModel),
      OrElse(env.ollamaVisionModel, DefaultVisionModel))
  }

  // ----- Extraction -----

  /** `parseJSON(text, pattern)`: `null` when nothing matches; otherwise the
      parser's verdict (a value, or `null` when it throws) on exactly the
      match JavaScript reports. */
  function ParseJson(text: string, open: char, close: char, parse: Parser): (r: Option<Json>)
    ensures NoMatch(text, open, close) ==> r.None?
    ensures !NoMatch(text, open, close) ==>
              exists i, j :: IsLeftmostLongest(text, open, close, i, j) && r == parse(text[i..j])
  {
    MatchSpanIsLeftmostLongest(text, open, close);
    match MatchSpan(text, open, close)
    case None => None
    case Some(span) => parse(span)
  }

  /** `parseJSON(text, /\[[\s\S]*\]/) || []`: the items found in a reply. */
  function ExtractItems(text: string, parse: Parser): (items: Json)
    ensures NoMatch(text, ArrayOpen, ArrayClose) ==> items == JArr([])
    ensures ParseJson(text, ArrayOpen, ArrayClose, parse).None? ==> items == JArr([])
    ensures Truthy(items)
  {
    MatchSpanIsLeftmostLongest(text, ArrayOpen, ArrayClose);
    match ParseJson(text, ArrayOpen, ArrayClose, parse)
    case Some(v) => if Truthy(v) then v else JArr([])
    case None => JArr([])
  }

  /** `parseJSON(text, /\{[\s\S]*\}/) || {days: [], grocery_list: []}`. */
  function ExtractPlan(text: string, parse: Parser): (plan: Json)
    ensures NoMatch(text, ObjectOpen, ObjectClose) ==> plan == EmptyPlan
    ensures ParseJson(text, ObjectOpen, ObjectClose, parse).None? ==> plan == EmptyPlan
    ensures Truthy(plan)
  {
    MatchSpanIsLeftmostLongest(text, ObjectOpen, ObjectClose);
    match ParseJson(text, ObjectOpen, ObjectClose, parse)
    case Some(v) => if Truthy(v) then v else EmptyPlan
    case None => EmptyPlan
  }

  /** With a conforming parser the extracted items are always an array:
      the parsed leftmost-longest `[...]` span, or `[]`. */
  lemma ExtractItemsIsArray(text: string, parse: Parser)
    requires WellShaped(parse)
    ensures ExtractItems(text, parse).JArr?
    ensures MatchSpan(text, ArrayOpen, ArrayClose).Some?
            && parse(MatchSpan(text, ArrayOpen, ArrayClose).value).Some? ==>
              ExtractItems(text, parse) == parse(MatchSpan(text, ArrayOpen, ArrayClose).value).value
  {
    var m := MatchSpan(text, ArrayOpen, ArrayClose);
    if m.Some? {
      MatchSpanIsLeftmostLongest(text, ArrayOpen, ArrayClose);
      assert m.value[0] == ArrayOpen;
      var p := parse(m.value);
      if p.Some? {
        assert p.value.JArr?;
      }
    }
  }

  /** With a conforming parser the extracted plan is always an object:
      the parsed leftmost-longest `{...}` span, or the empty plan. */
  lemma ExtractPlanIsObject(text: string, parse: Parser)
    requires WellShaped(parse)
    ensures ExtractPlan(text, parse).JObj?
    ensures MatchSpan(text, ObjectOpen, ObjectClose).Some?
            && parse(MatchSpan(text, ObjectOpen, ObjectClose).value).Some? ==>
              ExtractPlan(text, parse) == parse(MatchSpan(text, ObjectOpen, ObjectClose).value).value
  {
    var m := MatchSpan(text, ObjectOpen, ObjectClose);
    if m.Some? {
      MatchSpanIsLeftmostLongest(text, ObjectOpen, ObjectClose);
      assert m.value[0] == ObjectOpen;
      var p := parse(m.value);
      if p.Some? {
        assert p.value.JObj?;
      }
    }
  }

  /** An array embedded in prose free of brackets is parsed in full: the
      parser sees exactly the bracketed text. */
  lemma ExtractItemsFromEmbeddedArray(pre: string, arr: string, post: string, parse: Parser)
    requires |arr| >= 2 && arr[0] == '[' && arr[|arr| - 1] == ']'
    requires forall k :: 0 <= k < |pre| ==> pre[k] != '['
    requires forall k :: 0 <= k < |post| ==> post[k] != ']'
    requires parse(arr).Some? && parse(arr).value.JArr?
    ensures ExtractItems(pre + arr + post, parse) == parse(arr).value
  {
    EmbeddedSpan(pre, arr, post, ArrayOpen, ArrayClose);
  }

  // ----- Prompt rendering -----

  /** One inventory entry handed to meal planning. */
  datatype PlanItem = PlanItem(name: string, quantity: string, category: string)

  /** `- name (quantity) [category]`. */
  function ItemLine(i: PlanItem): string {
    "- " + i.name + " (" + i.quantity + ") [" + i.category + "]"
  }

  /** The inventory block of the meal-plan prompt: one line per item, in
      order, joined by newlines. */
  function RenderItemList(items: seq<PlanItem>): (r: string)
    ensures |items| == 0 ==> r == ""
    ensures |items| == 1 ==> r == ItemLine(items[0])
  {
    Join(Map(items, ItemLine), "\n")
  }

  predicate NoNewline(s: string) {
    forall k :: 0 <= k < |s| ==> s[k] != '\n'
  }

  /** When no field holds a newline, the rendered list splits back into
      exactly one `- name (quantity) [category]` line per item, in input
      order; in particular there is no trailing empty line. */
  lemma RenderItemListLines(items: seq<PlanItem>)
    requires |items| > 0
    requires forall k :: 0 <= k < |items| ==>
               NoNewline(items[k].name) && NoNewline(items[k].quantity) && NoNewline(items[k].category)
    ensures Split(RenderItemList(items), '\n') == Map(items, ItemLine)
  {
    var lines := Map(items, ItemLine);
    forall k, j | 0 <= k < |lines| && 0 <= j < |lines[k]| ensures lines[k][j] != '\n' {
      var i := items[k];
      assert lines[k] == "- " + i.name + " (" + i.quantity + ") [" + i.category + "]";
    }
    SplitJoin(lines, '\n');
  }

  /** An empty inventory renders as the empty string. */
  lemma RenderEmpty()
    ensures RenderItemList([]) == ""
  {
  }

  // ----- Operations -----

  /** The outcome of image analysis: the items and the reply verbatim. */
  datatype DetectResult = DetectResult(items: Json, rawResponse: string)

  /** The outcome of meal planning: the plan and the reply verbatim. */
  datatype PlanResult = PlanResult(plan: Json, rawResponse: string)

  /** Sends a prompt to the chosen backend: `ollamaChat` with the given
      model, or `anthropicChat`/`anthropicVision` through the lazily built
      client. Returns the reply text and the client slot afterwards. */
  function Ask(sv: Services, slot: Option<Client>, provider: Provider, ollamaModel: string,
               prompt: Prompt, image: Option<Image>): (r: (Result<string, string>, Option<Client>))
    ensures provider == Ollama ==> r.1 == slot
    ensures provider == Ollama ==>
              r.0 == OllamaChat(sv.ollama, GetOllamaConfig(sv.env).baseUrl, ollamaModel, prompt,
                                if image.Some? then Some(image.value.base64) else None)
    ensures provider == Anthropic && slot.None? && !IsSet(sv.env.anthropicApiKey) ==>
              r == (Failure(MissingKeyError), None)
    ensures provider == Anthropic ==>
              var got := LazyClient(slot, sv.env.anthropicApiKey, MissingKeyError);
              && r.1 == got.1
              && (got.0.Failure? ==> r.0 == Failure(got.0.error))
              && (got.0.Success? ==>
                    var reply := sv.anthropic(AnthropicRequest(got.0.value.apiKey,
                                                               OrElse(sv.env.anthropicModel, DefaultAnthropicModel),
                                                               MaxTokens, prompt, image));
                    && (reply.Failure? ==> r.0 == Failure(reply.error))
                    && (reply.Success? ==> r.0 == FirstText(reply.value)))
  {
    match provider
    case Ollama =>
      var base64 := if image.Some? then Some(image.value.base64) else None;
      (OllamaChat(sv.ollama, GetOllamaConfig(sv.env).baseUrl, ollamaModel, prompt, base64), slot)
    case Anthropic =>
      var got := LazyClient(slot, sv.env.anthropicApiKey, MissingKeyError);
      match got.0
      case Failure(e) => (Failure(e), got.1)
      case Success(client) =>
        var request := AnthropicRequest(client.apiKey, OrElse(sv.env.anthropicModel, DefaultAnthropicModel),
                                        MaxTokens, prompt, image);
        match sv.anthropic(request)
        case Failure(e) => (Failure(e), got.1)
        case Success(blocks) => (FirstText(blocks), got.1)
  }

  /** `analyzeInventoryImage`: asks the vision model of the chosen backend
      to list the items in a photo of `location`. A configuration or backend
      error fails the call; otherwise the items are whatever the reply's
      JSON array holds (possibly nothing) and the reply is returned verbatim. */
  function AnalyzeInventoryImage(sv: Services, slot: Option<Client>, imageBase64: string,
                                 mimeType: string, location: string): (r: (Result<DetectResult, string>, Option<Client>))
    ensures GetProvider(sv.env).Failure? ==> r == (Failure(NoProviderError), slot)
    ensures GetProvider(sv.env) == Success(Ollama) ==> r.1 == slot
    ensures r.0.Success? ==> r.0.value.items == ExtractItems(r.0.value.rawResponse, sv.parse)
    ensures GetProvider(sv.env).Success? ==>
              var asked := Ask(sv, slot, GetProvider(sv.env).value, GetOllamaConfig(sv.env).visionModel,
                               DetectItemsPrompt(location), Some(Image(imageBase64, mimeType)));
              && r.1 == asked.1
              && (r.0.Success? <==> asked.0.Success?)
              && (r.0.Success? ==> asked.0.value == r.0.value.rawResponse)
              && (r.0.Failure? ==> r.0.error == asked.0.error)
  {
    match GetProvider(sv.env)
    case Failure(e) => (Failure(e), slot)
    case Success(provider) =>
      var asked := Ask(sv, slot, provider, GetOllamaConfig(sv.env).visionModel,
                       DetectItemsPrompt(location), Some(Image(imageBase64, mimeType)));
      match asked.0
      case Failure(e) => (Failure(e), asked.1)
      case Success(text) => (Success(DetectResult(ExtractItems(text, sv.parse), text)), asked.1)
  }

  /** `generateMealPlan`: asks the text model of the chosen backend for a
      plan built from the rendered inventory. A configuration or backend
      error fails the call; otherwise the plan is the reply's JSON object,
      or the empty plan, and the reply is returned verbatim. */
  function GenerateMealPlan(sv: Services, slot: Option<Client>, items: seq<PlanItem>): (r: (Result<PlanResult, string>, Option<Client>))
    ensures GetProvider(sv.env).Failure? ==> r == (Failure(NoProviderError), slot)
    ensures GetProvider(sv.env) == Success(Ollama) ==> r.1 == slot
    ensures r.0.Success? ==> r.0.value.plan == ExtractPlan(r.0.value.rawResponse, sv.parse)
    ensures GetProvider(sv.env).Success? ==>
              var asked := Ask(sv, slot, GetProvider(sv.env).value, GetOllamaConfig(sv.env).textModel,
                               MealPlanPrompt(RenderItemList(items)), None);
              && r.1 == asked.1
              && (r.0.Success? <==> asked.0.Success?)
              && (r.0.Success? ==> asked.0.value == r.0.value.rawResponse)
              && (r.0.Failure? ==> r.0.error == asked.0.error)
  {
    match GetProvider(sv.env)
    case Failure(e) => (Failure(e), slot)
    case Success(provider) =>
      var asked := Ask(sv, slot, provider, GetOllamaConfig(sv.env).textModel,
                       MealPlanPrompt(RenderItemList(items)), None);
      match asked.0
      case Failure(e) => (Failure(e), asked.1)
      case Success(text) => (Success(PlanResult(ExtractPlan(text, sv.parse), text)), asked.1)
  }

  /** With no provider configured, neither operation consults either
      backend: the outcome is the same whatever the services would answer. */
  lemma NoProviderNoBackendCall(sv1: Services, sv2: Services, slot: Option<Client>,
                                imageBase64: string, mimeType: string, location: string, items: seq<PlanItem>)
    requires sv1.env == sv2.env && GetProvider(sv1.env).Failure?
    ensures AnalyzeInventoryImage(sv1, slot, imageBase64, mimeType, location)
            == AnalyzeInventoryImage(sv2, slot, imageBase64, mimeType, location)
    ensures GenerateMealPlan(sv1, slot, items) == GenerateMealPlan(sv2, slot, items)
  {
  }

  /** The Ollama path of image analysis: the vision model is asked at
      `<baseUrl>/api/chat` with the image attached. An OK reply's content,
      or "" when it has none, is the raw response; a network error or a
      non-OK reply fails the call. The client slot is never touched. */
  lemma AnalyzeViaOllama(sv: Services, slot: Option<Client>, imageBase64: string, mimeType: string, location: string)
    requires GetProvider(sv.env) == Success(Ollama)
    ensures var cfg := GetOllamaConfig(sv.env);
            var request := OllamaRequest(cfg.baseUrl + "/api/chat", cfg.visionModel, DetectItemsPrompt(location),
                                         if imageBase64 == "" then [] else [imageBase64], false);
            var reply := sv.ollama(request);
            var r := AnalyzeInventoryImage(sv, slot, imageBase64, mimeType, location);
            && (reply.Failure? ==> r == (Failure(reply.error), slot))
            && (reply.Success? && !reply.value.ok ==>
                  r == (Failure(OllamaError(reply.value.status, reply.value.errorText)), slot))
            && (reply.Success? && reply.value.ok ==>
                  var text := OrElse(reply.value.content, "");
                  r == (Success(DetectResult(ExtractItems(text, sv.parse), text)), slot))
  {
  }

  /** The Ollama path of meal planning: the text model is asked at
      `<baseUrl>/api/chat` with the rendered inventory and no image. */
  lemma PlanViaOllama(sv: Services, slot: Option<Client>, items: seq<PlanItem>)
    requires GetProvider(sv.env) == Success(Ollama)
    ensures var cfg := GetOllamaConfig(sv.env);
            var request := OllamaRequest(cfg.baseUrl + "/api/chat", cfg.textModel,
                                         MealPlanPrompt(RenderItemList(items)), [], false);
            var reply := sv.ollama(request);
            var r := GenerateMealPlan(sv, slot, items);
            && (reply.Failure? ==> r == (Failure(reply.error), slot))
            && (reply.Success? && !reply.value.ok ==>
                  r == (Failure(OllamaError(reply.value.status, reply.value.errorText)), slot))
            && (reply.Success? && reply.value.ok ==>
                  var text := OrElse(reply.value.content, "");
                  r == (Success(PlanResult(ExtractPlan(text, sv.parse), text)), slot))
  {
  }

  /** The Anthropic path of image analysis: with a client at hand, one
      request carries the image, the configured model (or the default) and
      the token limit. The first block's text is the raw response; a first
      block of another kind counts as "", and a reply without blocks or an
      SDK error fails the call. The client stays in place. */
  lemma AnalyzeViaAnthropic(sv: Services, client: Client, imageBase64: string, mimeType: string, location: string)
    requires GetProvider(sv.env) == Success(Anthropic)
    ensures var request := AnthropicRequest(client.apiKey, OrElse(sv.env.anthropicModel, DefaultAnthropicModel),
                                            MaxTokens, DetectItemsPrompt(location), Some(Image(imageBase64, mimeType)));
            var reply := sv.anthropic(request);
            var r := AnalyzeInventoryImage(sv, Some(client), imageBase64, mimeType, location);
            && r.1 == Some(client)
            && (reply.Failure? ==> r.0 == Failure(reply.error))
            && (reply == Success([]) ==> r.0 == Failure(NoContentError))
            && (reply.Success? && |reply.value| > 0 && reply.value[0].TextBlock? ==>
                  var text := reply.value[0].text;
                  r.0 == Success(DetectResult(ExtractItems(text, sv.parse), text)))
            && (reply.Success? && |reply.value| > 0 && !reply.value[0].TextBlock? ==>
                  r.0 == Success(DetectResult(JArr([]), "")))
  {
    assert MatchSpan("", ArrayOpen, ArrayClose).None?;
  }

  /** The Anthropic path of meal planning: the same request shape with the
      rendered inventory and no image; the plan comes from the first text
      block, and a first block of another kind yields the empty plan. */
  lemma PlanViaAnthropic(sv: Services, client: Client, items: seq<PlanItem>)
    requires GetProvider(sv.env) == Success(Anthropic)
    ensures var request := AnthropicRequest(client.apiKey, OrElse(sv.env.anthropicModel, DefaultAnthropicModel),
                                            MaxTokens, MealPlanPrompt(RenderItemList(items)), None);
            var reply := sv.anthropic(request);
            var r := GenerateMealPlan(sv, Some(client), items);
            && r.1 == Some(client)
            && (reply.Failure? ==> r.0 == Failure(reply.error))
            && (reply == Success([]) ==> r.0 == Failure(NoContentError))
            && (reply.Success? && |reply.value| > 0 && reply.value[0].TextBlock? ==>
                  var text := reply.value[0].text;
                  r.0 == Success(PlanResult(ExtractPlan(text, sv.parse), text)))
            && (reply.Success? && |reply.value| > 0 && !reply.value[0].TextBlock? ==>
                  r.0 == Success(PlanResult(EmptyPlan, "")))
  {
    assert MatchSpan("", ObjectOpen, ObjectClose).None?;
  }
}

=== FILE: meal_plan_route.dfy ===
/** `src/app/api/food/meal-plan/route.ts`: fetching the current meal plan
    and generating a new one from the inventory. The `meal_plans` table is
    a sequence of rows in insertion order; times are numbers (seconds for
    `generatedAt`, days since 1970-01-01 for the week start). */
module MealPlanRoute {
  import opened Wrappers
  import opened Strings
  import opened Seqs
  import opened Json
  import opened Backends
  import InventoryRoute
  import Llm

  /** A row of `meal_plans`: the serialised plan, the Monday of its week,
      and when it was generated. */
  datatype PlanRow = PlanRow(id: nat, weekStart: int, meals: string, generatedAt: nat)

  datatype PlanTable = PlanTable(rows: seq<PlanRow>, nextId: nat)

  /** What both handlers return on success: the plan (`null` when there is
      none), its generation time and week start (absent when there is none). */
  datatype PlanView = PlanView(plan: Json, generatedAt: Option<nat>, weekStart: Option<int>)

  datatype Response = Plan(view: PlanView) | BadRequest(error: string) | ServerError(error: string)

  const FetchFailed: string := "Failed to fetch meal plan"
  const NoInventory: string := "No inventory items. Upload pantry/fridge photos first."
  const UnknownQuantity: string := "unknown"

  // ----- GET -----

  /** Row `i` is the one `orderBy(generatedAt)` puts last: none was
      generated later, and every row inserted after it was generated
      strictly earlier (rows generated at the same time keep insertion
      order). */
  ghost predicate IsLatest(rows: seq<PlanRow>, i: nat) {
    && i < |rows|
    && (forall j :: 0 <= j < |rows| ==> rows[j].generatedAt <= rows[i].generatedAt)
    && (forall j :: i < j < |rows| ==> rows[j].generatedAt < rows[i].generatedAt)
  }

  /** At most one row is the latest. */
  lemma LatestIsUnique(rows: seq<PlanRow>, i: nat, j: nat)
    requires IsLatest(rows, i) && IsLatest(rows, j)
    ensures i == j
  {
    var gi, gj := rows[i].generatedAt, rows[j].generatedAt;
    assert i < j ==> gj < gi;
    assert j < i ==> gi < gj;
  }

  /** `plans[plans.length - 1]` of the ordered list: the latest row, if any. */
  function LatestIndex(rows: seq<PlanRow>): (r: Option<nat>)
    ensures r.None? <==> |rows| == 0
    ensures r.Some? ==> IsLatest(rows, r.value)
    decreases |rows|
  {
    if |rows| == 0 then None
    else
      var n := |rows| - 1;
      var prefix := rows[..n];
      match LatestIndex(prefix)
      case None => Some(n)
      case Some(k) =>
        assert forall j :: 0 <= j < n ==> rows[j] == prefix[j];
        if rows[n].generatedAt >= rows[k].generatedAt then Some(n) else Some(k)
  }

  /** When every row carries the same generation time (as when the column
      default is stored as one literal text), the latest row is the one
      inserted last. */
  lemma LatestOfEqualTimesIsLast(rows: seq<PlanRow>)
    requires |rows| > 0
    requires forall j :: 0 <= j < |rows| ==> rows[j].generatedAt == rows[0].generatedAt
    ensures LatestIndex(rows) == Some(|rows| - 1)
  {
    LatestIsUnique(rows, LatestIndex(rows).value, |rows| - 1);
  }

  /** `GET`: the latest plan parsed back from its stored text, or a `null`
      plan when the table is empty; stored text that does not parse is a
      server error. */
  function Get(plans: PlanTable, parse: Parser): (r: Response)
    ensures |plans.rows| == 0 ==> r == Plan(PlanView(JNull, None, None))
    ensures r.Plan? && |plans.rows| > 0 ==>
              exists i: nat :: IsLatest(plans.rows, i)
                          && parse(plans.rows[i].meals) == Some(r.view.plan)
                          && r.view.generatedAt == Some(plans.rows[i].generatedAt)
                          && r.view.weekStart == Some(plans.rows[i].weekStart)
    ensures r.ServerError? ==> r.error == FetchFailed
    ensures !r.BadRequest?
    ensures forall i: nat :: IsLatest(plans.rows, i) ==>
              && (parse(plans.rows[i].meals).Some? ==>
                    r == Plan(PlanView(parse(plans.rows[i].meals).value, Some(plans.rows[i].generatedAt),
                                       Some(plans.rows[i].weekStart))))
              && (r.ServerError? <==> parse(plans.rows[i].meals).None?)
  {
    match LatestIndex(plans.rows)
    case None => Plan(PlanView(JNull, None, None))
    case Some(i) =>
      var row := plans.rows[i];
      match parse(row.meals)
      case None => ServerError(FetchFailed)
      case Some(plan) => Plan(PlanView(plan, Some(row.generatedAt), Some(row.weekStart)))
  }

  // ----- Week start -----

  /** `getDay()` of the day `day` days after 1970-01-01 (a Thursday):
      0 for Sunday through 6 for Saturday. */
  function DayOfWeek(day: int): (r: nat)
    ensures r < 7
    ensures day == 0 ==> r == 4
    ensures (day + 4 - r) % 7 == 0
  {
    (day + 4) % 7
  }

  /** The day offset `setDate(getDate() - getDay() + 1)` applies. */
  function WeekStartOffset(dayOfWeek: nat): (r: int)
    requires dayOfWeek < 7
    ensures -5 <= r <= 1
    ensures r == 1 <==> dayOfWeek == 0
  {
    1 - dayOfWeek
  }

  /** The day the plan's week starts on: always a Monday, the Monday of
      the same week from Monday to Saturday and the following day on a
      Sunday. */
  function WeekStart(day: int): (r: int)
    ensures DayOfWeek(r) == 1
    ensures DayOfWeek(day) == 0 ==> r == day + 1
    ensures DayOfWeek(day) != 0 ==> r <= day && day - r == DayOfWeek(day) - 1
  {
    day + WeekStartOffset(DayOfWeek(day))
  }

  /** Every day from a Monday to the Saturday after it starts that Monday's
      week; the Sunday after it starts the next week. */
  lemma WeekStartOfWeek(monday: int, k: nat)
    requires DayOfWeek(monday) == 1 && k < 7
    ensures WeekStart(monday + k) == if k < 6 then monday else monday + 7
  {
    var q := (monday + 4) / 7;
    assert monday + 4 == 7 * q + 1;
    assert monday + k + 4 == 7 * q + (k + 1);
    assert DayOfWeek(monday + k) == (k + 1) % 7;
  }

  /** A week start is its own week start. */
  lemma WeekStartIdempotent(day: int)
    ensures WeekStart(WeekStart(day)) == WeekStart(day)
  {
  }

  // ----- POST -----

  /** The entry an inventory row contributes to the prompt: its name, its
      quantity or "unknown" when that is null or empty, and its category. */
  function ToPlanItem(row: InventoryRoute.Row): (r: Llm.PlanItem)
    ensures r.name == row.name && r.category == row.category
    ensures IsSet(row.quantity) ==> r.quantity == row.quantity.value
    ensures !IsSet(row.quantity) ==> r.quantity == UnknownQuantity
  {
    Llm.PlanItem(row.name, OrElse(row.quantity, UnknownQuantity), row.category)
  }

  /** The inventory handed to the planner: one entry per row, in row order. */
  function PlanItems(rows: seq<InventoryRoute.Row>): (items: seq<Llm.PlanItem>)
    ensures |items| == |rows|
    ensures forall i :: 0 <= i < |rows| ==>
              && items[i].name == rows[i].name
              && items[i].category == rows[i].category
              && (IsSet(rows[i].quantity) ==> items[i].quantity == rows[i].quantity.value)
              && (!IsSet(rows[i].quantity) ==> items[i].quantity == UnknownQuantity)
  {
    Map(rows, ToPlanItem)
  }

  /** `POST`: an empty inventory is a 400 before anything else; otherwise
      the gateway plans from the whole inventory, and the resulting plan is
      stored serialised together with its week start and returned. A
      gateway failure is a server error carrying its message and stores
      nothing. Returns the reply, the plan table and the gateway's client
      slot. */
  function Post(inventory: InventoryRoute.Table, plans: PlanTable, sv: Services, slot: Option<Client>,
                stringify: Serializer, today: int, now: nat): (r: (Response, PlanTable, Option<Client>))
    ensures |inventory.rows| == 0 ==> r == (BadRequest(NoInventory), plans, slot)
    ensures r.0.Plan? ==>
              && |inventory.rows| > 0
              && r.0.view.generatedAt == Some(now)
              && r.0.view.weekStart == Some(WeekStart(today))
              && r.1 == PlanTable(plans.rows + [PlanRow(plans.nextId, WeekStart(today), stringify(r.0.view.plan), now)],
                                  plans.nextId + 1)
    ensures !r.0.Plan? ==> r.1 == plans
    ensures r.0.Plan? || r.0.BadRequest? || r.0.ServerError?
    ensures |inventory.rows| > 0 ==>
              var g := Llm.GenerateMealPlan(sv, slot, PlanItems(inventory.rows));
              && r.2 == g.1
              && (r.0.Plan? <==> g.0.Success?)
              && (g.0.Success? ==> r.0.view.plan == g.0.value.plan)
              && (g.0.Failure? ==> r.0 == ServerError(g.0.error))
  {
    if |inventory.rows| == 0 then (BadRequest(NoInventory), plans, slot)
    else
      var generated := Llm.GenerateMealPlan(sv, slot, PlanItems(inventory.rows));
      match generated.0
      case Failure(e) => (ServerError(e), plans, generated.1)
      case Success(result) =>
        var weekStart := WeekStart(today);
        var row := PlanRow(plans.nextId, weekStart, stringify(result.plan), now);
        (Plan(PlanView(result.plan, Some(now), Some(weekStart))),
         PlanTable(plans.rows + [row], plans.nextId + 1),
         generated.1)
  }

  /** The plan `POST` returns is the gateway's plan for exactly the
      inventory, unchanged. */
  lemma PostReturnsGeneratedPlan(inventory: InventoryRoute.Table, plans: PlanTable, sv: Services, slot: Option<Client>,
                                 stringify: Serializer, today: int, now: nat)
    requires Post(inventory, plans, sv, slot, stringify, today, now).0.Plan?
    ensures var generated := Llm.GenerateMealPlan(sv, slot, PlanItems(inventory.rows));
            generated.0.Success?
            && Post(inventory, plans, sv, slot, stringify, today, now).0.view.plan == generated.0.value.plan
  {
  }

  /** With no inventory the planner is never consulted: the outcome is the
      same whatever the services would answer. */
  lemma EmptyInventoryNoPlanner(inventory: InventoryRoute.Table, plans: PlanTable, sv1: Services, sv2: Services,
                                slot: Option<Client>, stringify: Serializer, today: int, now: nat)
    requires |inventory.rows| == 0
    ensures Post(inventory, plans, sv1, slot, stringify, today, now) == Post(inventory, plans, sv2, slot, stringify, today, now)
  {
  }

  /** A `GET` after a successful `POST` returns what the `POST` returned,
      provided the clock has not gone backwards and parsing the stored text
      gives the plan back. */
  lemma GetAfterPost(inventory: InventoryRoute.Table, plans: PlanTable, sv: Services, slot: Option<Client>,
                     stringify: Serializer, today: int, now: nat)
    requires forall j :: 0 <= j < |plans.rows| ==> plans.rows[j].generatedAt <= now
    requires var r := Post(inventory, plans, sv, slot, stringify, today, now);
             r.0.Plan? && sv.parse(stringify(r.0.view.plan)) == Some(r.0.view.plan)
    ensures var r := Post(inventory, plans, sv, slot, stringify, today, now);
            Get(r.1, sv.parse) == r.0
  {
    var r := Post(inventory, plans, sv, slot, stringify, today, now);
    var rows := r.1.rows;
    var n := |rows| - 1;
    assert forall j :: 0 <= j < n ==> rows[j] == plans.rows[j];
    assert IsLatest(rows, n);
    var i: nat :| IsLatest(rows, i) && sv.parse(rows[i].meals) == Some(Get(r.1, sv.parse).view.plan);
    LatestIsUnique(rows, i, n);
  }
}

=== FILE: seqs.dfy ===
/** Order-preserving operations on sequences, modelling JavaScript's
    `Array.prototype.filter` and `Array.prototype.map`. */
module Seqs {

  /** `s.filter(p)`: the elements of `s` satisfying `p`, in their original order. */
  function Filter<T>(s: seq<T>, p: T -> bool): (r: seq<T>)
    ensures |r| <= |s|
    ensures forall i :: 0 <= i < |r| ==> r[i] in s && p(r[i])
    ensures forall i :: 0 <= i < |s| && p(s[i]) ==> s[i] in r
    decreases |s|
  {
    if |s| == 0 then []
    else (if p(s[0]) then [s[0]] else []) + Filter(s[1..], p)
  }

  /** `s.map(f)`: one image per element, position by position. */
  function Map<T, U>(s: seq<T>, f: T -> U): (r: seq<U>)
    ensures |r| == |s|
    ensures forall i :: 0 <= i < |s| ==> r[i] == f(s[i])
  {
    seq(|s|, i requires 0 <= i < |s| => f(s[i]))
  }

  /** Filtering a concatenation filters each part and keeps them in order;
      together with the one-element case this pins down the relative order
      of the kept elements. */
  lemma {:induction false} FilterConcat<T>(a: seq<T>, b: seq<T>, p: T -> bool)
    ensures Filter(a + b, p) == Filter(a, p) + Filter(b, p)
    decreases |a|
  {
    if |a| == 0 {
      assert a + b == b;
    } else {
      assert (a + b)[1..] == a[1..] + b;
      FilterConcat(a[1..], b, p);
    }
  }

  /** A filter that keeps every element returns the sequence unchanged. */
  lemma {:induction false} FilterKeepsAll<T>(s: seq<T>, p: T -> bool)
    requires forall i :: 0 <= i < |s| ==> p(s[i])
    ensures Filter(s, p) == s
    decreases |s|
  {
    if |s| > 0 {
      FilterKeepsAll(s[1..], p);
    }
  }

  /** A filter and its complement split the sequence: their lengths add up. */
  lemma {:induction false} FilterPartition<T>(s: seq<T>, p: T -> bool, q: T -> bool)
    requires forall x :: q(x) == !p(x)
    ensures |Filter(s, p)| + |Filter(s, q)| == |s|
    decreases |s|
  {
    if |s| > 0 {
      FilterPartition(s[1..], p, q);
    }
  }

  /** Filtering an appended element. */
  lemma FilterSnoc<T>(s: seq<T>, x: T, p: T -> bool)
    ensures Filter(s + [x], p) == Filter(s, p) + (if p(x) then [x] else [])
  {
    FilterConcat(s, [x], p);
  }

  /** A filter that keeps no element returns the empty sequence. */
  lemma {:induction false} FilterKeepsNone<T>(s: seq<T>, p: T -> bool)
    requires forall i :: 0 <= i < |s| ==> !p(s[i])
    ensures Filter(s, p) == []
    decreases |s|
  {
    if |s| > 0 {
      FilterKeepsNone(s[1..], p);
    }
  }

  /** Filters that agree on the elements give the same result. */
  lemma {:induction false} FilterAgrees<T>(s: seq<T>, p: T -> bool, q: T -> bool)
    requires forall i :: 0 <= i < |s| ==> p(s[i]) == q(s[i])
    ensures Filter(s, p) == Filter(s, q)
    decreases |s|
  {
    if |s| > 0 {
      FilterAgrees(s[1..], p, q);
    }
  }

  /** A filter that drops exactly the element at `i` removes just that one. */
  lemma FilterDropsOne<T>(s: seq<T>, i: nat, p: T -> bool)
    requires i < |s| && !p(s[i])
    requires forall k :: 0 <= k < |s| && k != i ==> p(s[k])
    ensures Filter(s, p) == s[..i] + s[i + 1..]
  {
    var a, x, b := s[..i], s[i], s[i + 1..];
    assert s == (a + [x]) + b;
    forall k | 0 <= k < |a| ensures p(a[k]) {
      assert a[k] == s[k];
    }
    forall k | 0 <= k < |b| ensures p(b[k]) {
      assert b[k] == s[i + 1 + k];
    }
    FilterKeepsAll(a, p);
    FilterKeepsAll(b, p);
    FilterSnoc(a, x, p);
    assert Filter(a + [x], p) == a;
    FilterConcat(a + [x], b, p);
  }
}

=== FILE: sidebar.dfy ===
/** `src/components/sidebar.tsx`: the navigation links and which of them
    is highlighted for the current path. */
module Sidebar {
  import opened Strings

  datatype NavItem = NavItem(href: string, name: string)

  const Root: string := "/"

  /** The links, in display order. */
  const NavItems: seq<NavItem> := [
    NavItem("/", "Dashboard"),
    NavItem("/food", "Food"),
    NavItem("/home", "Home"),
    NavItem("/todos", "TODOs"),
    NavItem("/schedule", "Schedule"),
    NavItem("/movies", "Movies")
  ]

  /** A link is active on its own path, and a link other than the root is
      also active on every path that starts with its `href` (a raw string
      prefix, with no check for a segment boundary). */
  predicate IsActive(pathname: string, href: string): (r: bool)
    ensures pathname == href ==> r
    ensures r ==> |href| <= |pathname| && pathname[..|href|] == href
  {
    pathname == href || (href != Root && StartsWith(pathname, href))
  }

  /** The root link is active on the root path and nowhere else. */
  lemma RootOnlyAtRoot(pathname: string)
    ensures IsActive(pathname, Root) <==> pathname == Root
  {
  }

  /** A sub-path activates its section: `/food/inventory` highlights Food. */
  lemma SubPathActivatesSection(href: string, rest: string)
    requires href != Root
    ensures IsActive(href + rest, href)
  {
    assert (href + rest)[..|href|] == href;
  }

  /** The prefix test ignores segment boundaries: `/foodx` highlights Food. */
  lemma PrefixIgnoresBoundary()
    ensures IsActive("/foodx", "/food")
  {
    assert "/foodx"[..5] == "/food";
  }

  /** Apart from the root, no link's `href` starts with another's. */
  lemma HrefsAreNotNested(i: nat, j: nat)
    requires 0 < i < |NavItems| && 0 < j < |NavItems| && i != j
    ensures !StartsWith(NavItems[i].href, NavItems[j].href)
  {
    var a, b := NavItems[i].href, NavItems[j].href;
    assert a[1] != b[1] || a[2] != b[2];
  }

  /** Whatever the path, at most one link is highlighted. */
  lemma AtMostOneActive(pathname: string, i: nat, j: nat)
    requires i < |NavItems| && j < |NavItems|
    requires IsActive(pathname, NavItems[i].href) && IsActive(pathname, NavItems[j].href)
    ensures i == j
  {
    var a, b := NavItems[i].href, NavItems[j].href;
    if i != j {
      if i == 0 || j == 0 {
        RootOnlyAtRoot(pathname);
      } else {
        assert StartsWith(pathname, a) && StartsWith(pathname, b);
        PrefixesAreComparable(pathname, a, b);
        HrefsAreNotNested(i, j);
        HrefsAreNotNested(j, i);
      }
    }
  }

  /** On a link's own path that link, and no other, is highlighted; in
      particular only Dashboard is highlighted on the root path. */
  lemma OnlyOwnLinkOnItsPath(i: nat, j: nat)
    requires i < |NavItems| && j < |NavItems|
    ensures IsActive(NavItems[i].href, NavItems[j].href) <==> i == j
  {
    if IsActive(NavItems[i].href, NavItems[j].href) {
      AtMostOneActive(NavItems[i].href, i, j);
    }
  }
}

=== FILE: span.dfy ===
/** Locating the JSON text in a model reply. The source applies the
    regular expressions `/\[[\s\S]*\]/` and `/\{[\s\S]*\}/` with
    `String.prototype.match`; `[\s\S]` matches every character, so a match
    is any stretch that starts with the opening character and ends with the
    closing one. `MatchSpan` computes the match the way a backtracking
    engine reports it (leftmost start, then longest), and the lemmas below
    show that it is exactly that match. */
module Span {
  import opened Wrappers
  import opened Strings

  const ArrayOpen: char := '['
  const ArrayClose: char := ']'
  const ObjectOpen: char := '{'
  const ObjectClose: char := '}'

  /** `s[i..j]` matches `open [\s\S]* close`. */
  predicate IsMatch(s: string, open: char, close: char, i: int, j: int) {
    0 <= i && i + 2 <= j <= |s| && s[i] == open && s[j - 1] == close
  }

  /** No stretch of `s` matches: `s.match(...)` returns `null`. */
  ghost predicate NoMatch(s: string, open: char, close: char) {
    forall i, j :: !IsMatch(s, open, close, i, j)
  }

  /** `s[i..j]` is the match JavaScript reports: no match starts earlier,
      and none starting at `i` is longer. */
  ghost predicate IsLeftmostLongest(s: string, open: char, close: char, i: int, j: int) {
    && IsMatch(s, open, close, i, j)
    && forall i', j' :: IsMatch(s, open, close, i', j') ==> i <= i' && (i' == i ==> j' <= j)
  }

  /** `s.match(/open[\s\S]*close/)?.[0]`: from the first `open` to the
      last `close`, provided the former precedes the latter. */
  function MatchSpan(s: string, open: char, close: char): (r: Option<string>)
    ensures r.Some? ==> |r.value| >= 2 && r.value[0] == open && r.value[|r.value| - 1] == close
  {
    match FirstIndex(s, open)
    case None => None
    case Some(i) =>
      match LastIndex(s, close)
      case None => None
      case Some(j) => if i < j then Some(s[i..j + 1]) else None
  }

  /** `MatchSpan` finds a match exactly when one exists, and what it finds
      is the leftmost-longest match, which is unique. */
  lemma MatchSpanIsLeftmostLongest(s: string, open: char, close: char)
    ensures MatchSpan(s, open, close).None? <==> NoMatch(s, open, close)
    ensures MatchSpan(s, open, close).Some? ==>
              exists i, j :: IsLeftmostLongest(s, open, close, i, j)
                             && MatchSpan(s, open, close).value == s[i..j]
    ensures forall i, j :: IsLeftmostLongest(s, open, close, i, j) ==>
              MatchSpan(s, open, close) == Some(s[i..j])
  {
    var fi := FirstIndex(s, open);
    var li := LastIndex(s, close);
    if fi.Some? && li.Some? && fi.value < li.value {
      var i, j := fi.value, li.value + 1;
      assert IsMatch(s, open, close, i, j);
      assert IsLeftmostLongest(s, open, close, i, j);
      forall i', j' | IsLeftmostLongest(s, open, close, i', j')
        ensures MatchSpan(s, open, close) == Some(s[i'..j'])
      {
        assert i <= i' && i' <= i;
        assert j <= j' && j' <= j;
      }
    } else {
      assert NoMatch(s, open, close);
    }
  }

  /** A bracketed text surrounded by prose that contains no opening
      character before it and no closing character after it is recovered
      exactly. */
  lemma EmbeddedSpan(pre: string, body: string, post: string, open: char, close: char)
    requires |body| >= 2 && body[0] == open && body[|body| - 1] == close
    requires forall k :: 0 <= k < |pre| ==> pre[k] != open
    requires forall k :: 0 <= k < |post| ==> post[k] != close
    ensures MatchSpan(pre + body + post, open, close) == Some(body)
  {
    var s := pre + body + post;
    var i, j := |pre|, |pre| + |body|;
    assert IsMatch(s, open, close, i, j);
    assert forall k :: 0 <= k < i ==> s[k] == pre[k];
    assert forall k :: j <= k < |s| ==> s[k] == post[k - j];
    MatchSpanIsLeftmostLongest(s, open, close);
    assert s[i..j] == body;
  }

  /** The greedy match does not isolate one array when the prose around
      it holds brackets of its own: it runs from the first `[` to the last
      `]`, swallowing the prose between two bracketed pieces. */
  lemma GreedyMatchSpansProse()
    ensures MatchSpan("a [1] b [2]", ArrayOpen, ArrayClose) == Some("[1] b [2]")
  {
    var s := "a [1] b [2]";
    assert IsLeftmostLongest(s, ArrayOpen, ArrayClose, 2, 11) by {
      assert IsMatch(s, ArrayOpen, ArrayClose, 2, 11);
      forall i', j' | IsMatch(s, ArrayOpen, ArrayClose, i', j') ensures 2 <= i' {
        assert s[0] != '[' && s[1] != '[';
      }
    }
    MatchSpanIsLeftmostLongest(s, ArrayOpen, ArrayClose);
    assert s[2..11] == "[1] b [2]";
  }
}

=== FILE: strings.dfy ===
/** The JavaScript string operations the application relies on: `trim`,
    `startsWith`, `indexOf`/`lastIndexOf` of one character, `split` on a
    one-character separator, `join`, decimal rendering of integers and
    `parseInt` without a radix. Strings are sequences of characters. */
module Strings {
  import opened Wrappers

  /** JavaScript truthiness of an optional string (an environment variable,
      a query parameter, a form field): present and non-empty. */
  predicate IsSet(v: Option<string>) {
    v.Some? && |v.value| > 0
  }

  /** `v || fallback`. */
  function OrElse(v: Option<string>, fallback: string): (r: string)
    ensures IsSet(v) ==> r == v.value
    ensures !IsSet(v) ==> r == fallback
  {
    if IsSet(v) then v.value else fallback
  }

  /** The characters JavaScript treats as white space for `trim` and
      `parseInt`: the WhiteSpace and LineTerminator productions. */
  predicate IsWhitespace(c: char) {
    || c == '\t' || c == '\n' || c == '\U{000B}' || c == '\U{000C}' || c == '\r'
    || c == ' ' || c == '\U{00A0}' || c == '\U{1680}'
    || ('\U{2000}' <= c <= '\U{200A}')
    || c == '\U{2028}' || c == '\U{2029}' || c == '\U{202F}' || c == '\U{205F}'
    || c == '\U{3000}' || c == '\U{FEFF}'
  }

  predicate AllWhitespace(s: string) {
    forall i :: 0 <= i < |s| ==> IsWhitespace(s[i])
  }

  /** How many white space characters `s` starts with. */
  function LeadingSpace(s: string): (n: nat)
    ensures n <= |s| && AllWhitespace(s[..n])
    ensures n < |s| ==> !IsWhitespace(s[n])
    decreases |s|
  {
    if |s| > 0 && IsWhitespace(s[0]) then 1 + LeadingSpace(s[1..]) else 0
  }

  /** How many white space characters `s` ends with. */
  function TrailingSpace(s: string): (n: nat)
    ensures n <= |s| && AllWhitespace(s[|s| - n..])
    ensures n < |s| ==> !IsWhitespace(s[|s| - n - 1])
    decreases |s|
  {
    if |s| > 0 && IsWhitespace(s[|s| - 1]) then 1 + TrailingSpace(s[..|s| - 1]) else 0
  }

  /** `s.trimStart()`: drops the leading white space and nothing else. */
  function TrimStart(s: string): (r: string)
    ensures |r| <= |s| && r == s[|s| - |r|..]
    ensures AllWhitespace(s[..|s| - |r|])
    ensures |r| > 0 ==> !IsWhitespace(r[0])
  {
    s[LeadingSpace(s)..]
  }

  /** `s.trimEnd()`: drops the trailing white space and nothing else. */
  function TrimEnd(s: string): (r: string)
    ensures |r| <= |s| && r == s[..|r|]
    ensures AllWhitespace(s[|r|..])
    ensures |r| > 0 ==> !IsWhitespace(r[|r| - 1])
  {
    s[..|s| - TrailingSpace(s)]
  }

  /** `s.trim()`. */
  function Trim(s: string): (r: string)
    ensures |r| <= |s|
    ensures |r| > 0 ==> !IsWhitespace(r[0]) && !IsWhitespace(r[|r| - 1])
  {
    var t := TrimStart(s);
    var u := TrimEnd(t);
    assert |u| > 0 ==> u[0] == t[0];
    u
  }

  /** A prefix of a suffix of `s` is a slice of `s`, and what follows it
      is the rest of `s`. */
  lemma PrefixOfSuffix(s: string, t: string, u: string)
    requires |t| <= |s| && t == s[|s| - |t|..]
    requires |u| <= |t| && u == t[..|u|]
    ensures var i := |s| - |t|; u == s[i..i + |u|] && s[i + |u|..] == t[|u|..]
  {
  }

  /** Where `s.trim()` sits in `s`: it starts after the leading white space
      that `trimStart` drops. */
  lemma TrimSlices(s: string)
    ensures var t := TrimStart(s);
            var u := TrimEnd(t);
            var i := |s| - |t|;
            Trim(s) == s[i..i + |u|] && s[i + |u|..] == t[|u|..]
  {
    var t := TrimStart(s);
    var u := TrimEnd(t);
    assert Trim(s) == u;
    assert t == s[|s| - |t|..];
    assert u == t[..|u|];
    PrefixOfSuffix(s, t, u);
  }

  /** `s.trim()` removes exactly the surrounding white space: the result is a
      contiguous piece of `s` surrounded only by white space, and it neither
      begins nor ends with white space. */
  lemma TrimSpec(s: string)
    ensures exists i, j :: 0 <= i <= j <= |s| && Trim(s) == s[i..j]
              && AllWhitespace(s[..i]) && AllWhitespace(s[j..])
    ensures |Trim(s)| > 0 ==> !IsWhitespace(Trim(s)[0]) && !IsWhitespace(Trim(s)[|Trim(s)| - 1])
  {
    var t := TrimStart(s);
    var u := TrimEnd(t);
    var i := |s| - |t|;
    TrimSlices(s);
    assert AllWhitespace(s[..i]) && AllWhitespace(s[i + |u|..]);
    if |u| > 0 {
      assert u[0] == t[0];
    }
  }

  /** `s.trim()` is empty exactly when `s` is empty or all white space. */
  lemma TrimEmptyIffBlank(s: string)
    ensures Trim(s) == "" <==> AllWhitespace(s)
  {
    var t := TrimStart(s);
    assert t == s[|s| - |t|..];
    if Trim(s) == "" {
      assert t[|TrimEnd(t)|..] == t;
      assert t == "";
      assert s == s[..|s| - |t|];
    }
  }

  /** `s.startsWith(prefix)`. */
  predicate StartsWith(s: string, prefix: string) {
    |prefix| <= |s| && s[..|prefix|] == prefix
  }

  /** Two prefixes of one string are prefixes of each other, one way or the other. */
  lemma PrefixesAreComparable(s: string, a: string, b: string)
    requires StartsWith(s, a) && StartsWith(s, b)
    ensures StartsWith(a, b) || StartsWith(b, a)
  {
    if |a| <= |b| {
      assert b[..|a|] == s[..|b|][..|a|] == s[..|a|];
    } else {
      assert a[..|b|] == s[..|a|][..|b|] == s[..|b|];
    }
  }

  /** `s.indexOf(c)`: the position of the first occurrence of `c`, if any. */
  function FirstIndex(s: string, c: char): (r: Option<nat>)
    ensures r.Some? ==> r.value < |s| && s[r.value] == c
    ensures r.Some? ==> forall k :: 0 <= k < r.value ==> s[k] != c
    ensures r.None? ==> forall k :: 0 <= k < |s| ==> s[k] != c
    decreases |s|
  {
    if |s| == 0 then None
    else if s[0] == c then Some(0)
    else match FirstIndex(s[1..], c)
      case None => None
      case Some(i) => Some(i + 1)
  }

  /** `s.lastIndexOf(c)`: the position of the last occurrence of `c`, if any. */
  function LastIndex(s: string, c: char): (r: Option<nat>)
    ensures r.Some? ==> r.value < |s| && s[r.value] == c
    ensures r.Some? ==> forall k :: r.value < k < |s| ==> s[k] != c
    ensures r.None? ==> forall k :: 0 <= k < |s| ==> s[k] != c
    decreases |s|
  {
    if |s| == 0 then None
    else if s[|s| - 1] == c then Some(|s| - 1)
    else LastIndex(s[..|s| - 1], c)
  }

  /** `s.split(c)` for a one-character separator: the pieces between
      occurrences of `c`; a string without `c` is one piece. */
  function Split(s: string, c: char): (r: seq<string>)
    ensures |r| > 0
    decreases |s|
  {
    match FirstIndex(s, c)
    case None => [s]
    case Some(i) => [s[..i]] + Split(s[i + 1..], c)
  }

  /** `xs.join(sep)`: the pieces with `sep` between neighbours, and none
      before the first or after the last. */
  function Join(xs: seq<string>, sep: string): string
    decreases |xs|
  {
    if |xs| == 0 then ""
    else if |xs| == 1 then xs[0]
    else xs[0] + sep + Join(xs[1..], sep)
  }

  /** Joining the pieces of a split restores the original string. */
  lemma {:induction false} JoinSplit(s: string, c: char)
    ensures Join(Split(s, c), [c]) == s
    decreases |s|
  {
    match FirstIndex(s, c)
    case None =>
    case Some(i) =>
      JoinSplit(s[i + 1..], c);
      assert s == s[..i] + [c] + s[i + 1..];
  }

  /** A separator after a piece free of it ends the first piece. */
  lemma SplitAtSeparator(a: string, c: char, rest: string)
    requires forall k :: 0 <= k < |a| ==> a[k] != c
    ensures Split(a + [c] + rest, c) == [a] + Split(rest, c)
  {
    var s := a + [c] + rest;
    assert s[|a|] == c;
    assert FirstIndex(s, c) == Some(|a|) by {
      assert forall k :: 0 <= k < |a| ==> s[k] == a[k];
    }
    assert s[..|a|] == a;
    assert s[|a| + 1..] == rest;
  }

  /** Splitting a join of pieces free of the separator gives the pieces back. */
  lemma {:induction false} SplitJoin(xs: seq<string>, c: char)
    requires |xs| > 0
    requires forall k, j :: 0 <= k < |xs| && 0 <= j < |xs[k]| ==> xs[k][j] != c
    ensures Split(Join(xs, [c]), c) == xs
    decreases |xs|
  {
    if |xs| == 1 {
      assert FirstIndex(xs[0], c).None?;
    } else {
      assert Join(xs, [c]) == xs[0] + [c] + Join(xs[1..], [c]);
      SplitAtSeparator(xs[0], c, Join(xs[1..], [c]));
      SplitJoin(xs[1..], c);
      assert xs == [xs[0]] + xs[1..];
    }
  }

  /** What `s.split(c).pop()` yields: the text after the last `c`, or
      the whole string when there is no `c`. */
  function AfterLast(s: string, c: char): string {
    match LastIndex(s, c)
    case None => s
    case Some(j) => s[j + 1..]
  }

  /** A position holding `c` with no `c` after it is the last index. */
  lemma LastIndexUnique(s: string, c: char, p: nat)
    requires p < |s| && s[p] == c
    requires forall k :: p < k < |s| ==> s[k] != c
    ensures LastIndex(s, c) == Some(p)
  {
  }

  /** The last occurrence in a suffix is the last occurrence in the whole. */
  lemma LastIndexInSuffix(s: string, c: char, m: nat)
    requires m <= |s|
    requires LastIndex(s[m..], c).Some?
    ensures LastIndex(s, c) == Some(m + LastIndex(s[m..], c).value)
  {
    var t := s[m..];
    var j := LastIndex(t, c).value;
    assert s[m + j] == t[j];
    forall k | m + j < k < |s| ensures s[k] != c {
      assert s[k] == t[k - m];
    }
    LastIndexUnique(s, c, m + j);
  }

  /** When a suffix has no `c`, a `c` just before it is the last one. */
  lemma LastIndexBeforeSuffix(s: string, c: char, i: nat)
    requires i < |s| && s[i] == c
    requires LastIndex(s[i + 1..], c).None?
    ensures LastIndex(s, c) == Some(i)
  {
    var t := s[i + 1..];
    forall k | i < k < |s| ensures s[k] != c {
      assert s[k] == t[k - i - 1];
    }
    LastIndexUnique(s, c, i);
  }

  /** What follows the last `c` is the same seen from just after any `c`. */
  lemma AfterLastAfterSeparator(s: string, c: char, i: nat)
    requires i < |s| && s[i] == c
    ensures AfterLast(s, c) == AfterLast(s[i + 1..], c)
  {
    match LastIndex(s[i + 1..], c)
    case None =>
      LastIndexBeforeSuffix(s, c, i);
    case Some(j) =>
      LastIndexInSuffix(s, c, i + 1);
      assert s[i + 1..][j + 1..] == s[i + 1 + j + 1..];
  }

  /** The last piece of a split is what follows the last separator. */
  lemma {:induction false} SplitLastPiece(s: string, c: char)
    ensures var pieces := Split(s, c); pieces[|pieces| - 1] == AfterLast(s, c)
    decreases |s|
  {
    match FirstIndex(s, c)
    case None =>
    case Some(i) =>
      var rest := Split(s[i + 1..], c);
      SplitLastPiece(s[i + 1..], c);
      assert Split(s, c) == [s[..i]] + rest;
      AfterLastAfterSeparator(s, c, i);
  }

  // ----- Decimal numbers -----

  predicate IsDecimalDigit(c: char) {
    '0' <= c <= '9'
  }

  /** The value of a hexadecimal or decimal digit character. */
  function DigitValue(c: char): nat {
    if '0' <= c <= '9' then c as nat - '0' as nat
    else if 'a' <= c <= 'f' then c as nat - 'a' as nat + 10
    else if 'A' <= c <= 'F' then c as nat - 'A' as nat + 10
    else 0
  }

  /** Whether `c` is a digit in base `radix` (10 or 16). */
  predicate IsRadixDigit(c: char, radix: nat) {
    if radix == 16 then IsDecimalDigit(c) || ('a' <= c <= 'f') || ('A' <= c <= 'F')
    else IsDecimalDigit(c)
  }

  function DigitChar(d: nat): (c: char)
    requires d < 10
    ensures IsDecimalDigit(c) && DigitValue(c) == d
  {
    (d + '0' as nat) as char
  }

  /** The decimal rendering of a non-negative integer, as a template
      literal `${n}` produces it. */
  function NatToString(n: nat): (r: string)
    ensures |r| > 0
    ensures forall i :: 0 <= i < |r| ==> IsDecimalDigit(r[i])
    ensures |r| > 1 ==> r[0] != '0'
  {
    if n < 10 then [DigitChar(n)] else NatToString(n / 10) + [DigitChar(n % 10)]
  }

  /** The value of a run of digits in base `radix`, most significant first. */
  function DigitsValue(ds: string, radix: nat): nat
    decreases |ds|
  {
    if |ds| == 0 then 0
    else DigitsValue(ds[..|ds| - 1], radix) * radix + DigitValue(ds[|ds| - 1])
  }

  /** The longest prefix of `s` made of base-`radix` digits. */
  function LeadingDigits(s: string, radix: nat): (r: string)
    ensures |r| <= |s| && r == s[..|r|]
    ensures forall i :: 0 <= i < |r| ==> IsRadixDigit(r[i], radix)
    ensures |r| < |s| ==> !IsRadixDigit(s[|r|], radix)
    decreases |s|
  {
    if |s| > 0 && IsRadixDigit(s[0], radix) then [s[0]] + LeadingDigits(s[1..], radix) else ""
  }

  /** The digits of `parseInt` after any sign: a `0x`/`0X` prefix selects
      base 16; the longest run of digits that follows is the value, and no
      digits at all is `NaN` (here `None`). */
  function ParseUnsigned(u: string): Option<nat> {
    var hex := |u| >= 2 && u[0] == '0' && (u[1] == 'x' || u[1] == 'X');
    var radix := if hex then 16 else 10;
    var ds := LeadingDigits(if hex then u[2..] else u, radix);
    if |ds| == 0 then None else Some(DigitsValue(ds, radix))
  }

  /** `parseInt(s)` without a radix argument: leading white space is
      skipped, then an optional `-` or `+` sign, then the digits. */
  function ParseInt(s: string): (r: Option<int>)
    ensures AllWhitespace(s) ==> r.None?
    ensures r.Some? && r.value < 0 ==> TrimStart(s)[0] == '-'
  {
    var t := TrimStart(s);
    var signed := |t| > 0 && (t[0] == '-' || t[0] == '+');
    match ParseUnsigned(if signed then t[1..] else t)
    case None => None
    case Some(v) =>
      var value: int := if signed && t[0] == '-' then -(v as int) else v;
      Some(value)
  }

  /** Reading back the decimal rendering of a number gives the number. */
  lemma {:induction false} DigitsValueOfNatToString(n: nat)
    ensures DigitsValue(NatToString(n), 10) == n
  {
    if n >= 10 {
      var s := NatToString(n / 10);
      var d := [DigitChar(n % 10)];
      DigitsValueOfNatToString(n / 10);
      assert (s + d)[..|s + d| - 1] == s;
    }
  }

  /** The digits of a decimal rendering are read back in full. */
  lemma ParseUnsignedOfNatToString(n: nat)
    ensures ParseUnsigned(NatToString(n)) == Some(n)
  {
    var s := NatToString(n);
    assert |s| >= 2 ==> s[0] != '0';
    assert LeadingDigits(s, 10) == s;
    DigitsValueOfNatToString(n);
  }

  /** `parseInt` inverts the decimal rendering: `parseInt(`${n}`) == n`. */
  lemma ParseIntOfNatToString(n: nat)
    ensures ParseInt(NatToString(n)) == Some(n)
  {
    var s := NatToString(n);
    assert !IsWhitespace(s[0]);
    assert TrimStart(s) == s;
    assert s[0] != '-' && s[0] != '+';
    ParseUnsignedOfNatToString(n);
  }
}

=== FILE: upload_route.dfy ===
/** `src/app/api/food/upload/route.ts`: a photo is stored on disk, sent to
    the Anthropic-only gateway for item detection, and recorded as an
    inventory snapshot. The disk write is an output of the handler; the
    base64 encoding is a parameter. */
module UploadRoute {
  import opened Wrappers
  import opened Strings
  import opened Json
  import opened Backends
  import AnthropicLib
  import Llm

  /** The `image` form field: the file's name, MIME type and contents. */
  datatype UploadedFile = UploadedFile(name: string, mimeType: string, data: seq<bv8>)

  /** The multipart form: the `image` file and the `location` field. */
  datatype Form = Form(image: Option<UploadedFile>, location: Option<string>)

  /** A row of `inventory_snapshots`; `analyzedAt` is the insertion time. */
  datatype Snapshot = Snapshot(id: nat, imagePath: string, location: string, analyzedAt: nat, rawResponse: string)

  datatype SnapshotTable = SnapshotTable(rows: seq<Snapshot>, nextId: nat)

  /** A file written under the working directory. */
  datatype SavedFile = SavedFile(path: string, data: seq<bv8>)

  datatype Response =
    | Detected(snapshot: Snapshot, detectedItems: Json, message: string)
    | BadRequest(error: string)
    | ServerError(error: string)

  /** Everything the handler produces: the reply, the snapshot table, the
      file it wrote (if any) and the gateway's client slot. */
  datatype Outcome = Outcome(response: Response, snapshots: SnapshotTable, saved: Option<SavedFile>, slot: Option<Client>)

  type Base64Encoder = seq<bv8> -> string

  const NoImage: string := "No image provided"
  const DefaultLocation: string := "fridge"
  const DefaultMimeType: string := "image/jpeg"
  const DefaultExtension: string := "jpg"
  const UploadDir: string := "data/uploads/"
  const ImagePathPrefix: string := "uploads/"
  const NullLengthError: string := "Cannot read properties of null (reading 'length')"

  /** `name.split(".").pop() || "jpg"`: the text after the last dot (the
      whole name when there is none), or "jpg" when that is empty. */
  function Extension(name: string): (ext: string)
    ensures AfterLast(name, '.') != "" ==> ext == AfterLast(name, '.')
    ensures AfterLast(name, '.') == "" ==> ext == DefaultExtension
  {
    var pieces := Split(name, '.');
    SplitLastPiece(name, '.');
    var last := pieces[|pieces| - 1];
    if last == "" then DefaultExtension else last
  }

  /** An extension never contains a dot. */
  lemma ExtensionHasNoDot(name: string)
    ensures forall k :: 0 <= k < |Extension(name)| ==> Extension(name)[k] != '.'
  {
    var a := AfterLast(name, '.');
    if a != "" {
      match LastIndex(name, '.')
      case None =>
      case Some(j) =>
        forall k | 0 <= k < |a| ensures a[k] != '.' {
          assert a[k] == name[j + 1 + k];
        }
    }
  }

  /** A name ending in `.ext` keeps `ext` as its extension. */
  lemma ExtensionOfName(base: string, ext: string)
    requires |ext| > 0
    requires forall k :: 0 <= k < |ext| ==> ext[k] != '.'
    ensures Extension(base + "." + ext) == ext
  {
    var s := base + "." + ext;
    forall k | |base| < k < |s| ensures s[k] != '.' {
      assert s[k] == ext[k - |base| - 1];
    }
    LastIndexUnique(s, '.', |base|);
    assert s[|base| + 1..] == ext;
  }

  /** A name without a dot is its own extension. */
  lemma NameWithoutDotIsExtension(name: string)
    requires |name| > 0
    requires forall k :: 0 <= k < |name| ==> name[k] != '.'
    ensures Extension(name) == name
  {
  }

  /** `${location}_${timestamp}.${ext}`. */
  function FileName(location: string, timestamp: nat, ext: string): (r: string)
    ensures |r| > |location| + |ext| + 2
    ensures r[..|location|] == location && r[|location|] == '_'
    ensures r[|r| - |ext|..] == ext && r[|r| - |ext| - 1] == '.'
  {
    location + "_" + NatToString(timestamp) + "." + ext
  }

  /** The stored file keeps the uploaded file's extension. */
  lemma StoredNameKeepsExtension(location: string, timestamp: nat, name: string)
    ensures var ext := Extension(name);
            Extension(FileName(location, timestamp, ext)) == ext
  {
    var ext := Extension(name);
    ExtensionHasNoDot(name);
    ExtensionOfName(location + "_" + NatToString(timestamp), ext);
  }

  /** `location || "fridge"`. */
  function Location(form: Form): (r: string)
    ensures IsSet(form.location) ==> r == form.location.value
    ensures !IsSet(form.location) ==> r == DefaultLocation
    ensures |r| > 0
  {
    OrElse(form.location, DefaultLocation)
  }

  /** `file.type || "image/jpeg"`. */
  function MimeType(file: UploadedFile): (r: string)
    ensures file.mimeType != "" ==> r == file.mimeType
    ensures file.mimeType == "" ==> r == DefaultMimeType
  {
    if file.mimeType == "" then DefaultMimeType else file.mimeType
  }

  /** `items.length` as the message template renders it: the element count
      of an array, the length of a string, a `TypeError` for `null`, and
      `undefined` for any other value. */
  function LengthText(items: Json): (r: Result<string, string>)
    ensures items.JArr? ==> r == Success(NatToString(|items.elems|))
    ensures r.Failure? <==> items.JNull?
  {
    match items
    case JArr(elems) => Success(NatToString(|elems|))
    case JStr(s) => Success(NatToString(|s|))
    case JNull => Failure(NullLengthError)
    case _ => Success("undefined")
  }

  function Message(count: string, location: string): (r: string)
    ensures |r| == |count| + |location| + 24
    ensures r[..9] == "Detected " && r[9..9 + |count|] == count
    ensures r[|r| - |location|..] == location
  {
    "Detected " + count + " items in your " + location
  }

  /** `POST`: a form without an image is a 400 with no other effect.
      Otherwise the file is written first; a detection failure is then a
      server error that leaves the snapshots alone, and a detection result
      is recorded as a snapshot before the reply is built (so a reply that
      fails to render still leaves the snapshot behind). `clock` is
      `Date.now()`, `now` the database's insertion time. */
  function Post(form: Form, snapshots: SnapshotTable, sv: Services, slot: Option<Client>,
                encode: Base64Encoder, clock: nat, now: nat): (r: Outcome)
    ensures form.image.None? ==> r == Outcome(BadRequest(NoImage), snapshots, None, slot)
    ensures form.image.Some? ==> r.response.Detected? || r.response.ServerError?
    ensures form.image.Some? ==>
              var file := form.image.value;
              r.saved == Some(SavedFile(UploadDir + FileName(Location(form), clock, Extension(file.name)), file.data))
    ensures r.response.Detected? ==>
              var file := form.image.value;
              var analysis := AnthropicLib.AnalyzeInventoryImage(sv, slot, encode(file.data), MimeType(file), Location(form));
              && form.image.Some?
              && analysis.0 == Success(Llm.DetectResult(r.response.detectedItems, r.response.snapshot.rawResponse))
              && r.slot == analysis.1
              && r.response.snapshot
                 == Snapshot(snapshots.nextId, ImagePathPrefix + FileName(Location(form), clock, Extension(file.name)),
                             Location(form), now, r.response.snapshot.rawResponse)
              && r.snapshots == SnapshotTable(snapshots.rows + [r.response.snapshot], snapshots.nextId + 1)
              && LengthText(r.response.detectedItems).Success?
              && r.response.message == Message(LengthText(r.response.detectedItems).value, Location(form))
    ensures r.response.ServerError? && form.image.Some? ==>
              var file := form.image.value;
              var analysis := AnthropicLib.AnalyzeInventoryImage(sv, slot, encode(file.data), MimeType(file), Location(form));
              && r.slot == analysis.1
              && ((analysis.0.Failure? && r.response.error == analysis.0.error && r.snapshots == snapshots)
                  || (analysis.0.Success? && analysis.0.value.items.JNull? && r.response.error == NullLengthError
                      && r.snapshots
                         == SnapshotTable(snapshots.rows + [Snapshot(snapshots.nextId,
                                                                     ImagePathPrefix + FileName(Location(form), clock, Extension(file.name)),
                                                                     Location(form), now, analysis.0.value.rawResponse)],
                                          snapshots.nextId + 1)))
  {
    match form.image
    case None => Outcome(BadRequest(NoImage), snapshots, None, slot)
    case Some(file) =>
      var location := Location(form);
      var filename := FileName(location, clock, Extension(file.name));
      var saved := Some(SavedFile(UploadDir + filename, file.data));
      var analysis := AnthropicLib.AnalyzeInventoryImage(sv, slot, encode(file.data), MimeType(file), location);
      match analysis.0
      case Failure(e) => Outcome(ServerError(e), snapshots, saved, analysis.1)
      case Success(result) =>
        var snapshot := Snapshot(snapshots.nextId, ImagePathPrefix + filename, location, now, result.rawResponse);
        var table := SnapshotTable(snapshots.rows + [snapshot], snapshots.nextId + 1);
        match LengthText(result.items)
        case Failure(e) => Outcome(ServerError(e), table, saved, analysis.1)
        case Success(count) => Outcome(Detected(snapshot, result.items, Message(count, location)), table, saved, analysis.1)
  }

  /** Without an image nothing is consulted: the outcome is the same
      whatever the services, the clock or the encoder. */
  lemma NoImageNoEffects(form: Form, snapshots: SnapshotTable, sv1: Services, sv2: Services, slot: Option<Client>,
                         encode1: Base64Encoder, encode2: Base64Encoder, clock1: nat, clock2: nat, now1: nat, now2: nat)
    requires form.image.None?
    ensures Post(form, snapshots, sv1, slot, encode1, clock1, now1) == Post(form, snapshots, sv2, slot, encode2, clock2, now2)
  {
  }

  /** With a conforming parser the detected items are always an array, the
      reply always renders, and its message counts the array's elements. */
  lemma DetectedMessageCountsItems(form: Form, snapshots: SnapshotTable, sv: Services, slot: Option<Client>,
                                   encode: Base64Encoder, clock: nat, now: nat)
    requires WellShaped(sv.parse)
    requires form.image.Some?
    ensures var r := Post(form, snapshots, sv, slot, encode, clock, now);
            && (r.response.Detected? || (r.response.ServerError? && r.snapshots == snapshots))
            && (r.response.Detected? ==>
                  && r.response.detectedItems.JArr?
                  && r.response.message
                     == Message(NatToString(|r.response.detectedItems.elems|), Location(form)))
  {
    var file := form.image.value;
    var location := Location(form);
    var analysis := AnthropicLib.AnalyzeInventoryImage(sv, slot, encode(file.data), MimeType(file), location);
    AnthropicLib.AnalyzedItemsAreArray(sv, slot, encode(file.data), MimeType(file), location);
    var r := Post(form, snapshots, sv, slot, encode, clock, now);
    if r.response.Detected? {
      var items := r.response.detectedItems;
      assert analysis.0.Success? && analysis.0.value.items == items;
      assert LengthText(items) == Success(NatToString(|items.elems|));
    }
  }
}

=== FILE: wrappers.dfy ===
/** Optional values and success/failure results, used wherever the source
    returns `null`/`undefined` or throws. */
module Wrappers {

  /** A value that may be absent (`null`, `undefined`, an unset variable). */
  datatype Option<+T> = None | Some(value: T) {

    /** The contained value, or `default` when absent. */
    function GetOr(default: T): T {
      match this
      case Some(v) => v
      case None => default
    }
  }

  /** The outcome of an operation that either succeeds with a value or
      fails with an error (a thrown exception in the source). */
  datatype Result<+R, +E> = Success(value: R) | Failure(error: E)
}
